=== FILE: README.md ===
# Breeding engine of VeryScuffedCobblemonBreeding, modelled in Dafny

The `/pokebreed` command of this Cobblemon add-on lets a player pick two creatures and breed them.
This project models the engine behind it:

- the ordered pair check (`checkBreed`);
- the synthesis of the offspring (`getPokemonBred` and its helpers): base parent, base-form species, friendship,
  shiny roll, hidden-ability re-roll, gender, IV inheritance with power items and destiny knot, nature with everstone;
- the per-player session map and its cooldown (`execute`, `cancel`, `doBreed`, and the delayed release);
- the configuration reader: `getInt`, `getBool`, the rewrite decision and the rewritten document.

Randomness enters only as explicit draws whose range is a precondition (`Offspring.Draws`), and the clock only as a `now` parameter.
Library calls whose results the engine only passes along are parameters too: the common-ability roll and the random nature.
The modules follow the program's structure:

- `Creatures`: the data model.
- `Pedigree`: the pre-evolution walk.
- `HeldItems`: the item tables.
- `Eligibility`: the pair check.
- `IvInheritance`: the six-channel pool.
- `Offspring`: the synthesis.
- `Sessions`: the session map and its cooldown.
- `BreedingConfig`: the configuration reader.
- `JavaArith`: Java's truncating `/` and `%` and the `int` range.

Notes on where the model follows the code:

- The code compares the boolean settings `DITTO_BREEDING` and `HIDDEN_ABILITY` with `0`. Both are declared `boolean`, so the model reads `== 0` as "the setting is off".
- The shiny roll uses the game's own shiny rate, passed in as `shinyRate`, and a fixed divisor of 6 under the Masuda condition.
  The configuration's masuda toggle and modifier, its custom rate and its crystal settings are read and rewritten, but breeding does not use them.
- A JSON `null` under a setting's key reads as the default. For the presence check of the masuda modifier, the same `null` counts as present.
  The model's `Value.Null` has both effects.
- `hasHiddenAbility` inspects the clone of the base parent after its species has been reset.
  So it tests the base parent's ability against the hidden abilities of the offspring's final species.

## Model

| member | source | states |
|---|---|---|
| Eligibility.Validate | common/src/main/java/dev/thomasqtruong/veryscuffedcobblemonbreeding/commands/PokeBreed.java:298-363 | Each rejection reason is returned exactly when its rule fails and no earlier rule did. Rules 5a-5c apply only without a ditto. The pair passes iff it is `Compatible`. On a pass, `dittoOrSelf` holds iff either parent is ditto or the species match. |
| Eligibility.ValidateSymmetric | common/src/main/java/dev/thomasqtruong/veryscuffedcobblemonbreeding/commands/PokeBreed.java:307-362 | Swapping the two parents gives the same verdict. |
| Eligibility.PassWithoutDittoHasMother | common/src/main/java/dev/thomasqtruong/veryscuffedcobblemonbreeding/commands/PokeBreed.java:339-355 | A passing pair without a ditto is one male and one female. |
| Eligibility.SameSpeciesGenderlessRefused | common/src/main/java/dev/thomasqtruong/veryscuffedcobblemonbreeding/commands/PokeBreed.java:340-349 | Two genderless parents of one non-ditto species are refused as "genderless with a regular creature". |
| Offspring.BaseParent | common/src/main/java/dev/thomasqtruong/veryscuffedcobblemonbreeding/commands/PokeBreed.java:376-394 | With dittoOrSelf set, the base parent is parent 1 unless parent 1 is ditto, in which case it is parent 2. Without it, the base parent is parent 1 if female, otherwise parent 2. |
| Offspring.BaseParentAfterValidation | common/src/main/java/dev/thomasqtruong/veryscuffedcobblemonbreeding/commands/PokeBreed.java:376-394 | After a pass the base parent is never ditto. Outside ditto or same-species breeding it is female. For same-species breeding it has the common species. |
| Pedigree.WalkToBase | common/src/main/java/dev/thomasqtruong/veryscuffedcobblemonbreeding/commands/PokeBreed.java:396-400 | The walk terminates on an acyclic registry and ends at a species without pre-evolution, namely its base form. |
| Pedigree.StepUp | common/src/main/java/dev/thomasqtruong/veryscuffedcobblemonbreeding/commands/PokeBreed.java:396-400 | Each step of the walk lowers the distance to the base form and keeps the same base form. |
| Pedigree.BaseForm | common/src/main/java/dev/thomasqtruong/veryscuffedcobblemonbreeding/commands/PokeBreed.java:396-400 | The base form is registered and has no pre-evolution. A species without pre-evolution is its own base form. |
| Pedigree.BaseFormOfPreEvolution | common/src/main/java/dev/thomasqtruong/veryscuffedcobblemonbreeding/commands/PokeBreed.java:396-400 | A species and its pre-evolution share one base form. |
| Pedigree.BaseFormIdempotent | common/src/main/java/dev/thomasqtruong/veryscuffedcobblemonbreeding/commands/PokeBreed.java:396-400 | Resolving a base form again changes nothing. |
| Offspring.Remap | common/src/main/java/dev/thomasqtruong/veryscuffedcobblemonbreeding/commands/PokeBreed.java:402-405 | Manaphy becomes phione. Every other species is kept. |
| Offspring.OffspringSpecies | common/src/main/java/dev/thomasqtruong/veryscuffedcobblemonbreeding/commands/PokeBreed.java:376-405 | The offspring's species is registered and is never manaphy. It is phione exactly when the base parent's base form is manaphy, and that base form otherwise, which has no pre-evolution. |
| Offspring.BaseFormParentsBreedTrue | common/src/main/java/dev/thomasqtruong/veryscuffedcobblemonbreeding/commands/PokeBreed.java:376-405 | Two base-form parents of one species other than manaphy produce their own species. |
| JavaArith.Rem | common/src/main/java/dev/thomasqtruong/veryscuffedcobblemonbreeding/commands/PokeBreed.java:415 | Java's `%` for a positive divisor: the remainder carries the dividend's sign and is smaller than the divisor in size. |
| JavaArith.Quot | common/src/main/java/dev/thomasqtruong/veryscuffedcobblemonbreeding/commands/PokeBreed.java:129 | Java's `/` for a positive divisor: the quotient is rounded toward zero. |
| Offspring.Friendship | common/src/main/java/dev/thomasqtruong/veryscuffedcobblemonbreeding/commands/PokeBreed.java:414-416 | The friendship passed on lies in [base-76, base+76]. It is at least the base for a non-negative draw and at most the base for a non-positive one. It differs from base + draw by a multiple of 77, which together with the range pins it to Java's `draw % 77 + base`. |
| Offspring.EffectiveShinyRate | common/src/main/java/dev/thomasqtruong/veryscuffedcobblemonbreeding/commands/PokeBreed.java:431-435 | The bound of the shiny draw is in [1, rate]. It equals the rate without the Masuda condition. With it, it is rate/6, and 1 when the rate is below 6. |
| Offspring.Masuda | common/src/main/java/dev/thomasqtruong/veryscuffedcobblemonbreeding/commands/PokeBreed.java:421-429 | The Masuda condition holds when some parent's original trainer is set and differs from the breeder. It fails when each parent's trainer is unset or is the breeder. |
| Offspring.RollShiny | common/src/main/java/dev/thomasqtruong/veryscuffedcobblemonbreeding/commands/PokeBreed.java:418-442 | Never shiny when the rate is at most 0. Otherwise shiny iff the draw is 0. |
| Offspring.MasudaNeverWorse | common/src/main/java/dev/thomasqtruong/veryscuffedcobblemonbreeding/commands/PokeBreed.java:428-435 | The Masuda condition never widens the draw range, and narrows it once the rate is at least 12. |
| Offspring.HiddenCandidates | common/src/main/java/dev/thomasqtruong/veryscuffedcobblemonbreeding/commands/PokeBreed.java:495-502 | The hidden candidates are exactly the templates the form's pool lists with `Low` priority. A one-entry pool gives its template iff it is `Low`, and nothing otherwise. |
| Offspring.HiddenCandidatesConcat | common/src/main/java/dev/thomasqtruong/veryscuffedcobblemonbreeding/commands/PokeBreed.java:495-502 | The candidates of a joined pool are the first part's followed by the second's. With the one-entry case this fixes the list: the `Low` templates in pool order, repeats kept, as the indexed pick sees them. |
| Offspring.HasHiddenAbility | common/src/main/java/dev/thomasqtruong/veryscuffedcobblemonbreeding/commands/PokeBreed.java:489-505 | False when passing hidden abilities down is off. Otherwise true iff the form's pool lists the parent's current ability with `Low` priority. |
| Offspring.RollHiddenAbility | common/src/main/java/dev/thomasqtruong/veryscuffedcobblemonbreeding/commands/PokeBreed.java:514-542 | A roll of 60 or more keeps the common ability, and so does a form without hidden abilities. Otherwise the pick chooses a hidden candidate. |
| Offspring.OffspringAbility | common/src/main/java/dev/thomasqtruong/veryscuffedcobblemonbreeding/commands/PokeBreed.java:444-450 | The ability is the common roll, or one of the form's hidden ones. The common roll stays when the base parent held no hidden ability or passing it down is off. When it held one, the ability is the hidden re-roll: a roll below 60 on a form with hidden abilities gives the picked candidate. |
| Offspring.RandomGender | common/src/main/java/dev/thomasqtruong/veryscuffedcobblemonbreeding/commands/PokeBreed.java:467-480 | As written: a negative ratio gives genderless whatever the draw. Otherwise, with a draw in [0,100], the result is male iff draw <= ratio, else female. |
| Offspring.AsWrittenMaleCount | common/src/main/java/dev/thomasqtruong/veryscuffedcobblemonbreeding/commands/PokeBreed.java:467-480 | As written, a ratio r in [0,100] gives r+1 male draws out of 101, so a female-only species still has one. |
| Offspring.FemaleOnlySpeciesCanYieldMale | common/src/main/java/dev/thomasqtruong/veryscuffedcobblemonbreeding/commands/PokeBreed.java:467-480 | The counterexample to the as-written rule: a species with male percentage 0 comes out male on the draw 0. |
| Offspring.IntendedGender | common/src/main/java/dev/thomasqtruong/veryscuffedcobblemonbreeding/commands/PokeBreed.java:467-480 | Corrected: with a draw in [0,100), the result is male iff draw < ratio. A ratio of 0 always gives female and a ratio of 100 always gives male. |
| Offspring.IntendedMaleCount | common/src/main/java/dev/thomasqtruong/veryscuffedcobblemonbreeding/commands/PokeBreed.java:467-480 | Corrected, a ratio r in [0,100] gives exactly r male draws out of 100. |
| Offspring.InheritNature | common/src/main/java/dev/thomasqtruong/veryscuffedcobblemonbreeding/commands/PokeBreed.java:730-750 | If both parents hold an everstone, the coin picks one parent's nature. If exactly one holds it, that parent's nature is used. If neither does, the nature is the random one. |
| Offspring.InheritNatureSymmetric | common/src/main/java/dev/thomasqtruong/veryscuffedcobblemonbreeding/commands/PokeBreed.java:730-750 | Swapping the parents and flipping the coin gives the same nature. |
| Offspring.Traits | common/src/main/java/dev/thomasqtruong/veryscuffedcobblemonbreeding/commands/PokeBreed.java:373-458 | Every trait but the IVs, as `Offspring.Breed` states them; the IVs are still the base parent's clone. |
| Offspring.Breed | common/src/main/java/dev/thomasqtruong/veryscuffedcobblemonbreeding/commands/PokeBreed.java:373-458 | See the list below the table. |
| HeldItems.BreedingItem | common/src/main/java/dev/thomasqtruong/veryscuffedcobblemonbreeding/commands/PokeBreed.java:602-611 | Item ids outside the seven breeding items read as empty. A breeding item is kept. |
| HeldItems.PowerStat | common/src/main/java/dev/thomasqtruong/veryscuffedcobblemonbreeding/commands/PokeBreed.java:642-670 | The guaranteed channel comes from the item id when that id is a power item, and from the legacy tag otherwise. |
| HeldItems.PowerTablesAgree | common/src/main/java/dev/thomasqtruong/veryscuffedcobblemonbreeding/commands/PokeBreed.java:176-194 | Both power tables cover all six channels, and the id and legacy names of each item boost the same channel. |
| IvInheritance.Quota | common/src/main/java/dev/thomasqtruong/veryscuffedcobblemonbreeding/commands/PokeBreed.java:613-618 | The quota is 5 iff either parent holds a destiny knot, in id or legacy form, and 3 otherwise. |
| IvInheritance.PowerHolder | common/src/main/java/dev/thomasqtruong/veryscuffedcobblemonbreeding/commands/PokeBreed.java:620-640 | No holder without a power item. With two holders the coin chooses, 0 meaning parent 1. A single holder is chosen directly. |
| IvInheritance.Needed | common/src/main/java/dev/thomasqtruong/veryscuffedcobblemonbreeding/commands/PokeBreed.java:613-674 | The random picks number the quota minus the power channel. There are fewer picks than the starting pool size, so every `nextInt(toSet.size())` bound is at least 2. |
| IvInheritance.Remove | common/src/main/java/dev/thomasqtruong/veryscuffedcobblemonbreeding/commands/PokeBreed.java:649 | `List.remove(Object)` removes the first occurrence of the channel, as `RemoveAt` at `FirstIndex`, and leaves a pool without it unchanged. On a repeat-free pool it removes exactly that channel and keeps the pool free of repeats. |
| IvInheritance.FirstIndex | common/src/main/java/dev/thomasqtruong/veryscuffedcobblemonbreeding/commands/PokeBreed.java:649 | The index found holds the channel, and no earlier entry does. |
| IvInheritance.RemoveAt | common/src/main/java/dev/thomasqtruong/veryscuffedcobblemonbreeding/commands/PokeBreed.java:685 | `List.remove(int)` removes exactly the channel at that index. The entries before it keep their places and the later ones move down by one. On a repeat-free pool the result stays free of repeats. |
| IvInheritance.PowerStep | common/src/main/java/dev/thomasqtruong/veryscuffedcobblemonbreeding/commands/PokeBreed.java:642-670 | After the power step the pool and the writes partition the six channels. The power channel is written first, from its holder's value. |
| IvInheritance.PickChannels | common/src/main/java/dev/thomasqtruong/veryscuffedcobblemonbreeding/commands/PokeBreed.java:672-686 | The k-th pick writes the channel at its drawn index in the pool as it stands after the earlier picks, copied from the parent its coin chooses (0 meaning parent 1). The pool and the writes keep partitioning the six channels. |
| IvInheritance.FillRest | common/src/main/java/dev/thomasqtruong/veryscuffedcobblemonbreeding/commands/PokeBreed.java:688-691 | Every channel left in the pool gets one fresh value in [0,31], in pool order and with the fill draws in order, which empties the pool. |
| IvInheritance.PicksThenFill | common/src/main/java/dev/thomasqtruong/veryscuffedcobblemonbreeding/commands/PokeBreed.java:672-691 | From any partition of the channels between pool and writes, the picks and then the fill keep the earlier writes, add inherited writes for the picks and rolled ones after them, and follow the draws (`FollowsDraws`). All six channels end up written once, each value true to its source. |
| IvInheritance.OffspringIvs | common/src/main/java/dev/thomasqtruong/veryscuffedcobblemonbreeding/commands/PokeBreed.java:564-691 | Each of the six channels is written once and ends with its write's value. The first `quota` writes are inherited and true to their parent, the power channel comes first from its holder, and the writes follow the draws (`InheritedAsDrawn`). |
| IvInheritance.InheritIvs | common/src/main/java/dev/thomasqtruong/veryscuffedcobblemonbreeding/commands/PokeBreed.java:564-691 | Each of the six channels is written exactly once. The first `quota` writes copy a parent's value and the rest are fresh values in [0,31]. A power item's channel is written first, from its holder. The next writes follow the picks in draw order, each from its drawn index and parent, and the leftovers take the fill draws in pool order. |
| IvInheritance.ApplyDistinct | common/src/main/java/dev/thomasqtruong/veryscuffedcobblemonbreeding/commands/PokeBreed.java:564-691 | When no channel is written twice, each channel of the offspring ends with the value of its write. |
| IvInheritance.ApplyUntouched | common/src/main/java/dev/thomasqtruong/veryscuffedcobblemonbreeding/commands/PokeBreed.java:380-389 | A channel that is never written keeps the value cloned from the base parent. |
| Sessions.NewSession | common/src/main/java/dev/thomasqtruong/veryscuffedcobblemonbreeding/commands/PokeBreed.java:146-150 | A new session has nothing selected, has never bred, and is not cancelled. It carries the given identity and records the requester's VIP flag, which later picks the cooldown tier. |
| Sessions.SecondsLeft | common/src/main/java/dev/thomasqtruong/veryscuffedcobblemonbreeding/commands/PokeBreed.java:125-144 | The reported seconds left are in [0, 60*cooldown] within the window and 0 at its exact end. They round the remaining milliseconds up to whole seconds. |
| Sessions.Execute | common/src/main/java/dev/thomasqtruong/veryscuffedcobblemonbreeding/commands/PokeBreed.java:89-153 | See the list below the table. |
| Sessions.Release | common/src/main/java/dev/thomasqtruong/veryscuffedcobblemonbreeding/commands/PokeBreed.java:270-285 | The delayed release removes only the player's entry. |
| Sessions.DoBreed | common/src/main/java/dev/thomasqtruong/veryscuffedcobblemonbreeding/commands/PokeBreed.java:235-290 | See the list below the table. |
| Sessions.BreedAtMostOnce | common/src/main/java/dev/thomasqtruong/veryscuffedcobblemonbreeding/commands/PokeBreed.java:236-254 | A cancelled session, which includes every bred one, never reaches the synthesis again. |
| Sessions.PurgedSessionNeverBreeds | common/src/main/java/dev/thomasqtruong/veryscuffedcobblemonbreeding/commands/PokeBreed.java:99-103 | A never-bred session purged by the command comes back with its flag set, so it is never ready to breed. Its write-back cannot touch the player's new session, whose identity differs. |
| Sessions.StaleConfirmation | common/src/main/java/dev/thomasqtruong/veryscuffedcobblemonbreeding/commands/PokeBreed.java:235-241 | Confirming the screen of a purged session after the player reopened breeding breeds nothing and drops the player's new session. Other players' entries stay. |
| Sessions.Store | common/src/main/java/dev/thomasqtruong/veryscuffedcobblemonbreeding/commands/PokeBreed.java:286 | The write of `timeBred` reaches the map only while the written session is still the one filed for its player. Otherwise the map is unchanged, and other players' entries never change. |
| Sessions.CooldownFollowsBreed | common/src/main/java/dev/thomasqtruong/veryscuffedcobblemonbreeding/commands/PokeBreed.java:96-144 | After a breed at a nonzero time, the next command is rejected exactly while the elapsed time is within the window, and reports the seconds left. After that a new session is opened. |
| Sessions.FiveMinuteScenario | common/src/main/java/dev/thomasqtruong/veryscuffedcobblemonbreeding/commands/PokeBreed.java:106-144 | With a 5-minute cooldown, a command 2 minutes after a breed gets "180 seconds". A command 6 minutes after reopens breeding. |
| BreedingConfig.GetInt | common/src/main/java/dev/thomasqtruong/veryscuffedcobblemonbreeding/config/VeryScuffedCobblemonBreedingConfig.java:243-251 | A missing key or null gives the default. An integer is returned as-is and a double in its truncated form. Any other type gives the default. |
| BreedingConfig.GetBool | common/src/main/java/dev/thomasqtruong/veryscuffedcobblemonbreeding/config/VeryScuffedCobblemonBreedingConfig.java:225-241 | A missing key or null gives the default without the flag. A boolean is returned as-is. An integer or double gives `value == 1` and sets the integer-boolean flag. Any other type gives the default without the flag. |
| BreedingConfig.GroupOf | common/src/main/java/dev/thomasqtruong/veryscuffedcobblemonbreeding/config/VeryScuffedCobblemonBreedingConfig.java:91-107 | An absent group reads as empty, a present one as its fields. |
| BreedingConfig.NeedsRewrite | common/src/main/java/dev/thomasqtruong/veryscuffedcobblemonbreeding/config/VeryScuffedCobblemonBreedingConfig.java:130-150 | A missing group forces a rewrite, and so does a shiny group without the masuda modifier key, and so does each integer-encoded boolean setting. Conversely, a document with all four groups, the modifier key and no integer-encoded boolean needs no rewrite. |
| BreedingConfig.ReadConfig | common/src/main/java/dev/thomasqtruong/veryscuffedcobblemonbreeding/config/VeryScuffedCobblemonBreedingConfig.java:109-128 | Every setting is the number or boolean present under its key, a number meaning `== 1` for a boolean setting. A missing key, null or unusable value gives its documented default. |
| BreedingConfig.Load | common/src/main/java/dev/thomasqtruong/veryscuffedcobblemonbreeding/config/VeryScuffedCobblemonBreedingConfig.java:81-156 | See the list below the table. |
| BreedingConfig.ShinyGroup | common/src/main/java/dev/thomasqtruong/veryscuffedcobblemonbreeding/config/VeryScuffedCobblemonBreedingConfig.java:204-220 | The rewritten shiny group holds exactly its seven keys, and each reads back as the value written. |
| BreedingConfig.Write | common/src/main/java/dev/thomasqtruong/veryscuffedcobblemonbreeding/config/VeryScuffedCobblemonBreedingConfig.java:180-223 | The rewritten document holds exactly the four groups and the masuda modifier key, with no integer-encoded boolean. |
| BreedingConfig.RoundTrip | common/src/main/java/dev/thomasqtruong/veryscuffedcobblemonbreeding/config/VeryScuffedCobblemonBreedingConfig.java:109-156 | Reading a rewritten document gives back the same settings and asks for no further rewrite. |
| BreedingConfig.RewriteIsStable | common/src/main/java/dev/thomasqtruong/veryscuffedcobblemonbreeding/config/VeryScuffedCobblemonBreedingConfig.java:130-156 | A rewrite keeps every setting that was read, and the rewritten file is read without another rewrite. |
| BreedingConfig.EmptyDocumentGivesDefaults | common/src/main/java/dev/thomasqtruong/veryscuffedcobblemonbreeding/config/VeryScuffedCobblemonBreedingConfig.java:30-62 | An empty document yields the documented defaults: cooldown 5, VIP cooldown 3, custom rate 4096, masuda modifier 6, and so on. It also asks for a rewrite. |

What the three long rows state:

- `Offspring.Breed`:
  - the species is the remapped base form of the base parent;
  - the friendship lies within 76 of the species' base friendship;
  - the offspring is shiny iff the rate is positive and the shiny draw is 0;
  - the friendship is `Offspring.Friendship` of the friendship draw and the species' base friendship;
  - the ability is the common roll or a hidden one, and exactly `Offspring.OffspringAbility` of the base parent's ability;
  - the gender is genderless iff the ratio is negative, and otherwise follows the corrected rule;
  - the effort values are all 0 and the original trainer is the breeder;
  - the nature is a parent's when either holds an everstone, and the random one otherwise; it is exactly `Offspring.InheritNature` of the two items and natures;
  - each IV channel is written exactly once, with `quota` of them inherited;
  - a power item's channel is written first from its holder, then the picks and the fill draws in order, as `IvInheritance.InheritIvs` states;
  - all the non-IV traits together are packaged as `Offspring.BredAsDrawn`.
- `Sessions.Execute`:
  - a never-bred session is cancelled and replaced, and the reply hands back that session object with its flag set;
  - a bred session past the window (strictly more elapsed) is replaced;
  - a bred session within the window rejects with the seconds left and changes nothing;
  - every other call files a new session and leaves other players' entries alone;
  - it keeps every session filed under its own player;
  - the new session has an identity no filed session has.
- `Sessions.DoBreed`:
  - a cancelled session, a missing creature or a failing rule cancels the session, removes the player's entry, and reports the reason;
  - the breed happens iff the session is ready;
  - a successful breed sets `timeBred = now`, writes the session back only if it is still the one filed, and arms the release with the tier's cooldown;
  - the session always ends cancelled;
  - the bred baby satisfies `Offspring.BredAsDrawn` for the session's two creatures, the `dittoOrSelf` verdict of `Eligibility.Validate` on them, and the breeder. That fixes its species, friendship, shininess, ability, nature and trainer, and its gender by the corrected rule (a draw in [0,100), male iff draw < ratio).
- `BreedingConfig.Load`:
  - a present group that is not an object fails the load;
  - otherwise a rewrite is asked for iff a group is missing, the shiny group lacks the masuda modifier, or some boolean setting is integer-encoded;
  - every one of the 13 settings reads as the value present under its key, and as its documented default when its group or only its key is missing, null or unusable.

## Findings

| source | as written | input that shows it | evidently intended | confidence | as-written member | corrected member |
|---|---|---|---|---|---|---|
| common/src/main/java/dev/thomasqtruong/veryscuffedcobblemonbreeding/commands/PokeBreed.java:467-480 | The gender draw is in [0,100] and the offspring is male iff draw <= male percentage. | Male percentage 0, a female-only species, with draw 0: the offspring is male. This happens 1 time in 101. | Male with probability equal to the male percentage: a draw in [0,100) and male iff draw < percentage. | medium, not executed | Offspring.RandomGender, Offspring.AsWrittenMaleCount, Offspring.FemaleOnlySpeciesCanYieldMale | Offspring.IntendedGender, Offspring.IntendedMaleCount |

`Offspring.Breed` uses the corrected rule.

## Left out

- Sessions.DoBreed: ties the bred baby's non-IV traits to the draws through `Offspring.BredAsDrawn`, but not its IVs, because the outcome does not carry the IV writes; `Offspring.Breed` states them. Its gender follows the corrected rule (male iff draw < ratio, with a draw in [0,100)), so the draw 100 the program can produce is excluded and a draw equal to the ratio gives female where the program gives male.
- Scheduler threads and timers: the delayed release is the explicit `Sessions.Release` transition.
- Command registration and permission checks, the selection screen (`start`/`openMenu`), party storage and chat messages: these are UI or calls into the game.
- Cobblemon internals: cloning, moveset, healing and experience reset, `rollAbility` and `Natures.getRandomNature`.
  The model takes their results as draws and does not model them.
  The ability is modelled by its template only; the "forced" flag of the new `Ability` object is not modelled.
- `setSpecies` is assumed to keep the clone's ability and to take its form data from the species registry.
  Forms are collapsed to their species.
- `setFriendship(value, true)`: how the library clamps the value is not modelled. `Offspring.Friendship` is the value handed to it.
- `getMaleRatio() * 100`: a float conversion, taken as an integer percentage.
- Floating-point settings: a double is held as its already truncated `intValue()`.
- File creation and writing, and JSON parsing: these are I/O and a foreign library. Key order in the written file is not modelled.
- `System.currentTimeMillis` is read twice in `execute`; the model uses one `now` for both reads.
- 64-bit overflow of `now - timeBred` is not modelled, and nor is the `0` timestamp of a breed at exactly the epoch.
- Extracting the held item's id from `heldItem.toString()` and reading the `breedItem` tag: each parent's item arrives already split into id and legacy tag.
  An id that is a breeding item but not a power item, together with a legacy power tag, is excluded by `HeldItems.Consistent`. The code would look the id up and find nothing.
- The integer-boolean flag lives on the config instance and is never reset. `BreedingConfig.Load` models one load on a fresh instance.
- `Offspring.WellFormedDex` requires phione to be registered. The source's `requireNonNull` on that lookup would throw otherwise.
- `Pedigree.Acyclic` rules out a cyclic pre-evolution chain. On such a chain the source's loop never ends.
- Object identity is a session's `id`. The flag `cancel()` sets on a purged session object reaches its holder through the reply of `Sessions.Execute`, not through shared state.
  A new session's identity is only required to differ from the filed ones, not from every session object ever made.
- Offspring.Traits: uses the corrected gender rule (male iff draw < ratio, with a draw in [0,100), as `DrawsFit` requires), not the program's `nextInt(101)` with `<=`, which `Offspring.RandomGender` models; the draw 100 is excluded and a draw equal to the ratio gives female.
- Offspring.BredAsDrawn: states the gender by the same corrected rule, through `Offspring.IntendedGender`.
- Offspring.Breed: uses the corrected gender rule from the Findings table, not the as-written one, which `Offspring.RandomGender` models.

=== FILE: breeding_config.dfy ===
/**
 * The breeding configuration: its documented defaults, the tolerant key
 * readers, the decision to rewrite the file, and the document the rewrite
 * produces. A document is modelled as its four top-level groups, each a flat
 * mapping of dotted keys to already-parsed values.
 */
module BreedingConfig {
  import opened Wrappers
  import opened JavaArith

  /**
   * A value as the JSON library hands it over: a boolean, an integer, a
   * floating-point number (held as Java's `intValue()` of it), an explicit
   * JSON null, or anything else (text, array, object).
   */
  datatype Value = Bool(b: bool) | Int(i: int32) | Num(truncated: int32) | Null | Other

  type Group = map<string, Value>

  /** A top-level member: a JSON object, or some other JSON value (null included). */
  datatype Member = Object(fields: Group) | NonObject

  type Document = map<string, Member>

  const PermissionLevels := "permissionlevels"
  const Cooldowns := "cooldowns"
  const ShinyModifiers := "shinyModifiers"
  const OtherFeatures := "otherFeatures"

  const KeyCommand := "command.pokebreed"
  const KeyVipCommand := "command.vippokebreed"
  const KeyCooldown := "command.pokebreed.cooldown"
  const KeyVipCooldown := "command.pokebreed.vipcooldown"
  const KeyUseCustomRate := "shiny.rates.useCustomValue"
  const KeyCustomRate := "shiny.rates.customValue"
  const KeyMasuda := "shiny.methods.masuda.enabled"
  const KeyMasudaModifier := "shiny.methods.masuda.modifier"
  const KeyCrystal := "shiny.methods.crystal.enabled"
  const KeyCrystalModifier := "shiny.methods.crystal.modifier"
  const KeyCrystalDoubleParent := "shiny.methods.crystal.doubleParent"
  const KeyDitto := "ditto.breeding"
  const KeyHiddenAbility := "hidden.ability"

  datatype Config = Config(
    commandLevel: int32,
    vipCommandLevel: int32,
    cooldownMinutes: int32,
    vipCooldownMinutes: int32,
    useCustomShinyRate: bool,
    customShinyRate: int32,
    masuda: bool,
    masudaModifier: int32,
    crystal: bool,
    crystalModifier: int32,
    crystalDoubleParent: bool,
    dittoBreeding: bool,
    hiddenAbility: bool)

  /** The documented defaults. */
  const Defaults := Config(
    commandLevel := 2, vipCommandLevel := 3,
    cooldownMinutes := 5, vipCooldownMinutes := 3,
    useCustomShinyRate := false, customShinyRate := 4096,
    masuda := true, masudaModifier := 6,
    crystal := true, crystalModifier := 2, crystalDoubleParent := true,
    dittoBreeding := true, hiddenAbility := true)

  /** An integer setting: numbers are taken (truncated if fractional), anything else gives the default. */
  function GetInt(g: Group, key: string, default: int32): (r: int32)
    ensures key !in g || g[key].Null? ==> r == default
    ensures key in g && g[key].Int? ==> r == g[key].i
    ensures key in g && g[key].Num? ==> r == g[key].truncated
    ensures key in g && (g[key].Bool? || g[key].Other?) ==> r == default
  {
    if key !in g then default
    else match g[key]
      case Int(i) => i
      case Num(t) => t
      case _ => default
  }

  /** A boolean read, and whether it met a legacy integer-encoded boolean. */
  datatype BoolRead = BoolRead(value: bool, integerBoolean: bool)

  /** A boolean setting: booleans are taken, numbers mean `== 1` and are flagged, anything else gives the default. */
  function GetBool(g: Group, key: string, default: bool): (r: BoolRead)
    ensures key !in g || g[key].Null? ==> r == BoolRead(default, false)
    ensures key in g && g[key].Bool? ==> r == BoolRead(g[key].b, false)
    ensures key in g && g[key].Int? ==> r == BoolRead(g[key].i == 1, true)
    ensures key in g && g[key].Num? ==> r == BoolRead(g[key].truncated == 1, true)
    ensures key in g && g[key].Other? ==> r == BoolRead(default, false)
    ensures r.integerBoolean <==> key in g && (g[key].Int? || g[key].Num?)
  {
    if key !in g then BoolRead(default, false)
    else match g[key]
      case Bool(b) => BoolRead(b, false)
      case Int(i) => BoolRead(i == 1, true)
      case Num(t) => BoolRead(t == 1, true)
      case _ => BoolRead(default, false)
  }

  /** No usable integer under `key`: absent, null, or neither kind of number. */
  predicate NoInt(g: Group, key: string) {
    key !in g || !(g[key].Int? || g[key].Num?)
  }

  /** No usable boolean under `key`: absent, null, or neither a boolean nor a number. */
  predicate NoBool(g: Group, key: string) {
    key !in g || g[key].Null? || g[key].Other?
  }

  /** `v` is how the integer setting `key` reads: the number present, or `default`. */
  predicate IntSetting(g: Group, key: string, default: int32, v: int32) {
    && (NoInt(g, key) ==> v == default)
    && (key in g && g[key].Int? ==> v == g[key].i)
    && (key in g && g[key].Num? ==> v == g[key].truncated)
  }

  /** `v` is how the boolean setting `key` reads: the boolean present, a number meaning `== 1`, or `default`. */
  predicate BoolSetting(g: Group, key: string, default: bool, v: bool) {
    && (NoBool(g, key) ==> v == default)
    && (key in g && g[key].Bool? ==> v == g[key].b)
    && (key in g && g[key].Int? ==> v == (g[key].i == 1))
    && (key in g && g[key].Num? ==> v == (g[key].truncated == 1))
  }

  /** A top-level group is present but is not an object; reading it fails. */
  predicate Malformed(doc: Document, name: string) {
    name in doc && doc[name].NonObject?
  }

  predicate WellFormed(doc: Document) {
    !Malformed(doc, PermissionLevels) && !Malformed(doc, Cooldowns)
    && !Malformed(doc, ShinyModifiers) && !Malformed(doc, OtherFeatures)
  }

  /** The fields of a present group; an absent group reads as empty. */
  function GroupOf(doc: Document, name: string): (g: Group)
    requires !Malformed(doc, name)
    ensures name !in doc ==> g == map[]
    ensures name in doc ==> g == doc[name].fields
  {
    if name in doc then doc[name].fields else map[]
  }

  /** A setting that holds a legacy integer-encoded boolean. */
  predicate IntegerBoolean(g: Group, key: string) {
    key in g && (g[key].Int? || g[key].Num?)
  }

  /** Whether some boolean setting of the document is integer-encoded. */
  predicate HasIntegerBooleans(doc: Document)
    requires WellFormed(doc)
  {
    var shiny := GroupOf(doc, ShinyModifiers);
    var other := GroupOf(doc, OtherFeatures);
    IntegerBoolean(shiny, KeyUseCustomRate) || IntegerBoolean(shiny, KeyMasuda)
    || IntegerBoolean(shiny, KeyCrystal) || IntegerBoolean(shiny, KeyCrystalDoubleParent)
    || IntegerBoolean(other, KeyDitto) || IntegerBoolean(other, KeyHiddenAbility)
  }

  /**
   * The file must be rewritten when a group is missing, when the shiny
   * group lacks the masuda modifier key, or when an integer boolean was read.
   * The presence tests see an explicit JSON null as present.
   */
  function NeedsRewrite(doc: Document): (b: bool)
    requires WellFormed(doc)
    ensures !({PermissionLevels, Cooldowns, ShinyModifiers, OtherFeatures} <= doc.Keys) ==> b
    ensures !b ==> KeyMasudaModifier in GroupOf(doc, ShinyModifiers)
    ensures ShinyModifiers in doc && KeyMasudaModifier !in GroupOf(doc, ShinyModifiers) ==> b
    ensures IntegerBoolean(GroupOf(doc, ShinyModifiers), KeyUseCustomRate) ==> b
    ensures IntegerBoolean(GroupOf(doc, ShinyModifiers), KeyMasuda) ==> b
    ensures IntegerBoolean(GroupOf(doc, ShinyModifiers), KeyCrystal) ==> b
    ensures IntegerBoolean(GroupOf(doc, ShinyModifiers), KeyCrystalDoubleParent) ==> b
    ensures IntegerBoolean(GroupOf(doc, OtherFeatures), KeyDitto) ==> b
    ensures IntegerBoolean(GroupOf(doc, OtherFeatures), KeyHiddenAbility) ==> b
    // Conversely, a complete document with the modifier key and only true booleans is left alone.
    ensures && {PermissionLevels, Cooldowns, ShinyModifiers, OtherFeatures} <= doc.Keys
            && KeyMasudaModifier in GroupOf(doc, ShinyModifiers)
            && !HasIntegerBooleans(doc)
            ==> !b
  {
    || PermissionLevels !in doc || Cooldowns !in doc || ShinyModifiers !in doc || OtherFeatures !in doc
    || (ShinyModifiers in doc && KeyMasudaModifier !in doc[ShinyModifiers].fields)
    || HasIntegerBooleans(doc)
  }

  datatype Loaded = Loaded(config: Config, needsRewrite: bool)

  datatype LoadError = GroupNotAnObject(name: string)

  /** Every setting read from its group, with its default. */
  function ReadConfig(perms: Group, cools: Group, shiny: Group, other: Group): (c: Config)
    ensures IntSetting(perms, KeyCommand, 2, c.commandLevel)
    ensures IntSetting(perms, KeyVipCommand, 3, c.vipCommandLevel)
    ensures IntSetting(cools, KeyCooldown, 5, c.cooldownMinutes)
    ensures IntSetting(cools, KeyVipCooldown, 3, c.vipCooldownMinutes)
    ensures BoolSetting(shiny, KeyUseCustomRate, false, c.useCustomShinyRate)
    ensures IntSetting(shiny, KeyCustomRate, 4096, c.customShinyRate)
    ensures BoolSetting(shiny, KeyMasuda, true, c.masuda)
    ensures IntSetting(shiny, KeyMasudaModifier, 6, c.masudaModifier)
    ensures BoolSetting(shiny, KeyCrystal, true, c.crystal)
    ensures IntSetting(shiny, KeyCrystalModifier, 2, c.crystalModifier)
    ensures BoolSetting(shiny, KeyCrystalDoubleParent, true, c.crystalDoubleParent)
    ensures BoolSetting(other, KeyDitto, true, c.dittoBreeding)
    ensures BoolSetting(other, KeyHiddenAbility, true, c.hiddenAbility)
  {
    Config(
      commandLevel := GetInt(perms, KeyCommand, Defaults.commandLevel),
      vipCommandLevel := GetInt(perms, KeyVipCommand, Defaults.vipCommandLevel),
      cooldownMinutes := GetInt(cools, KeyCooldown, Defaults.cooldownMinutes),
      vipCooldownMinutes := GetInt(cools, KeyVipCooldown, Defaults.vipCooldownMinutes),
      useCustomShinyRate := GetBool(shiny, KeyUseCustomRate, Defaults.useCustomShinyRate).value,
      customShinyRate := GetInt(shiny, KeyCustomRate, Defaults.customShinyRate),
      masuda := GetBool(shiny, KeyMasuda, Defaults.masuda).value,
      masudaModifier := GetInt(shiny, KeyMasudaModifier, Defaults.masudaModifier),
      crystal := GetBool(shiny, KeyCrystal, Defaults.crystal).value,
      crystalModifier := GetInt(shiny, KeyCrystalModifier, Defaults.crystalModifier),
      crystalDoubleParent := GetBool(shiny, KeyCrystalDoubleParent, Defaults.crystalDoubleParent).value,
      dittoBreeding := GetBool(other, KeyDitto, Defaults.dittoBreeding).value,
      hiddenAbility := GetBool(other, KeyHiddenAbility, Defaults.hiddenAbility).value)
  }

  /** Reads every setting of a document with its default, and decides whether to rewrite the file. */
  function Load(doc: Document): (r: Result<Loaded, LoadError>)
    ensures r.Failure? <==> !WellFormed(doc)
    ensures r.Success? ==> r.value.needsRewrite == NeedsRewrite(doc)
    ensures r.Success? && PermissionLevels !in doc ==>
              r.value.config.commandLevel == 2 && r.value.config.vipCommandLevel == 3
    ensures r.Success? && Cooldowns !in doc ==>
              r.value.config.cooldownMinutes == 5 && r.value.config.vipCooldownMinutes == 3
    ensures r.Success? && OtherFeatures !in doc ==>
              r.value.config.dittoBreeding && r.value.config.hiddenAbility
    ensures r.Success? && ShinyModifiers in doc && KeyMasudaModifier !in doc[ShinyModifiers].fields ==>
              r.value.config.masudaModifier == 6 && r.value.needsRewrite
    // Every setting, whether its group or only its key is missing: the value present, else the default.
    ensures r.Success? ==>
              var perms := GroupOf(doc, PermissionLevels);
              && IntSetting(perms, KeyCommand, 2, r.value.config.commandLevel)
              && IntSetting(perms, KeyVipCommand, 3, r.value.config.vipCommandLevel)
    ensures r.Success? ==>
              var cools := GroupOf(doc, Cooldowns);
              && IntSetting(cools, KeyCooldown, 5, r.value.config.cooldownMinutes)
              && IntSetting(cools, KeyVipCooldown, 3, r.value.config.vipCooldownMinutes)
    ensures r.Success? ==>
              var shiny := GroupOf(doc, ShinyModifiers);
              && BoolSetting(shiny, KeyUseCustomRate, false, r.value.config.useCustomShinyRate)
              && IntSetting(shiny, KeyCustomRate, 4096, r.value.config.customShinyRate)
              && BoolSetting(shiny, KeyMasuda, true, r.value.config.masuda)
              && IntSetting(shiny, KeyMasudaModifier, 6, r.value.config.masudaModifier)
              && BoolSetting(shiny, KeyCrystal, true, r.value.config.crystal)
              && IntSetting(shiny, KeyCrystalModifier, 2, r.value.config.crystalModifier)
              && BoolSetting(shiny, KeyCrystalDoubleParent, true, r.value.config.crystalDoubleParent)
    ensures r.Success? ==>
              var other := GroupOf(doc, OtherFeatures);
              && BoolSetting(other, KeyDitto, true, r.value.config.dittoBreeding)
              && BoolSetting(other, KeyHiddenAbility, true, r.value.config.hiddenAbility)
  {
    if Malformed(doc, PermissionLevels) then Failure(GroupNotAnObject(PermissionLevels))
    else if Malformed(doc, Cooldowns) then Failure(GroupNotAnObject(Cooldowns))
    else if Malformed(doc, ShinyModifiers) then Failure(GroupNotAnObject(ShinyModifiers))
    else if Malformed(doc, OtherFeatures) then Failure(GroupNotAnObject(OtherFeatures))
    else
      var perms := GroupOf(doc, PermissionLevels);
      var cools := GroupOf(doc, Cooldowns);
      var shiny := GroupOf(doc, ShinyModifiers);
      var other := GroupOf(doc, OtherFeatures);
      var useCustom := GetBool(shiny, KeyUseCustomRate, Defaults.useCustomShinyRate);
      var masuda := GetBool(shiny, KeyMasuda, Defaults.masuda);
      var crystal := GetBool(shiny, KeyCrystal, Defaults.crystal);
      var doubleParent := GetBool(shiny, KeyCrystalDoubleParent, Defaults.crystalDoubleParent);
      var ditto := GetBool(other, KeyDitto, Defaults.dittoBreeding);
      var hidden := GetBool(other, KeyHiddenAbility, Defaults.hiddenAbility);
      var config := ReadConfig(perms, cools, shiny, other);
      var integerBooleans := useCustom.integerBoolean || masuda.integerBoolean || crystal.integerBoolean
                             || doubleParent.integerBoolean || ditto.integerBoolean || hidden.integerBoolean;
      var missing := PermissionLevels !in doc || Cooldowns !in doc || ShinyModifiers !in doc
                     || OtherFeatures !in doc
                     || (ShinyModifiers in doc && KeyMasudaModifier !in shiny);
      Success(Loaded(config, missing || integerBooleans))
  }

  /** The rewritten shiny group: seven keys, booleans stored as booleans. */
  function ShinyGroup(c: Config): (g: Group)
    ensures g.Keys == {KeyUseCustomRate, KeyCustomRate, KeyMasuda, KeyMasudaModifier,
                       KeyCrystal, KeyCrystalModifier, KeyCrystalDoubleParent}
    ensures GetBool(g, KeyUseCustomRate, false) == BoolRead(c.useCustomShinyRate, false)
    ensures GetInt(g, KeyCustomRate, 0) == c.customShinyRate
    ensures GetBool(g, KeyMasuda, false) == BoolRead(c.masuda, false)
    ensures GetInt(g, KeyMasudaModifier, 0) == c.masudaModifier
    ensures GetBool(g, KeyCrystal, false) == BoolRead(c.crystal, false)
    ensures GetInt(g, KeyCrystalModifier, 0) == c.crystalModifier
    ensures GetBool(g, KeyCrystalDoubleParent, false) == BoolRead(c.crystalDoubleParent, false)
  {
    map[KeyUseCustomRate := Bool(c.useCustomShinyRate)]
    [KeyCustomRate := Int(c.customShinyRate)]
    [KeyMasuda := Bool(c.masuda)]
    [KeyMasudaModifier := Int(c.masudaModifier)]
    [KeyCrystal := Bool(c.crystal)]
    [KeyCrystalModifier := Int(c.crystalModifier)]
    [KeyCrystalDoubleParent := Bool(c.crystalDoubleParent)]
  }

  /** The document the rewrite produces: all four groups, every key, booleans as booleans. */
  function Write(c: Config): (doc: Document)
    ensures doc.Keys == {PermissionLevels, Cooldowns, ShinyModifiers, OtherFeatures}
    ensures WellFormed(doc)
    ensures KeyMasudaModifier in doc[ShinyModifiers].fields
    ensures !HasIntegerBooleans(doc)
  {
    map[PermissionLevels := Object(map[KeyCommand := Int(c.commandLevel)]
                                      [KeyVipCommand := Int(c.vipCommandLevel)])]
    [Cooldowns := Object(map[KeyCooldown := Int(c.cooldownMinutes)]
                            [KeyVipCooldown := Int(c.vipCooldownMinutes)])]
    [OtherFeatures := Object(map[KeyDitto := Bool(c.dittoBreeding)]
                                [KeyHiddenAbility := Bool(c.hiddenAbility)])]
    [ShinyModifiers := Object(ShinyGroup(c))]
  }

  /** Reading a rewritten document gives back the same settings and asks for no further rewrite. */
  lemma RoundTrip(c: Config)
    ensures Load(Write(c)) == Success(Loaded(c, false))
  {
  }

  /** A rewrite keeps every setting that was read, and settles the file. */
  lemma RewriteIsStable(doc: Document)
    requires Load(doc).Success?
    ensures Load(Write(Load(doc).value.config)) == Success(Loaded(Load(doc).value.config, false))
  {
    RoundTrip(Load(doc).value.config);
  }

  /** An empty document reads as the defaults and asks for a rewrite. */
  lemma EmptyDocumentGivesDefaults()
    ensures Load(map[]) == Success(Loaded(Defaults, true))
  {
  }
}

=== FILE: creatures.dfy ===
/**
 * The data the breeding engine reads: creatures (Cobblemon `Pokemon`), the
 * per-species form data it consults (egg groups, gender ratio, base
 * friendship, ability pool, pre-evolution) and the six stat channels.
 */
module Creatures {
  import opened Wrappers
  import opened JavaArith

  /** Species are compared by their registered name. */
  type SpeciesId = string
  type AbilityId = string
  type Nature = string
  /** A player, identified by the text form of their UUID. */
  type Player = string

  const Ditto: SpeciesId := "ditto"
  const Manaphy: SpeciesId := "manaphy"
  const Phione: SpeciesId := "phione"

  datatype Gender = Male | Female | Genderless

  datatype Stat = Hp | Attack | Defence | SpecialAttack | SpecialDefence | Speed

  /** One value per stat channel: individual values (0-31) or effort values. */
  datatype StatValues = StatValues(hp: int, attack: int, defence: int,
                                   specialAttack: int, specialDefence: int, speed: int)
  {
    function Get(s: Stat): int {
      match s
      case Hp => hp
      case Attack => attack
      case Defence => defence
      case SpecialAttack => specialAttack
      case SpecialDefence => specialDefence
      case Speed => speed
    }

    /** The channel `s` overwritten with `v`; every other channel is kept. */
    function Set(s: Stat, v: int): (r: StatValues)
      ensures r.Get(s) == v
      ensures forall t: Stat :: t != s ==> r.Get(t) == Get(t)
    {
      match s
      case Hp => this.(hp := v)
      case Attack => this.(attack := v)
      case Defence => this.(defence := v)
      case SpecialAttack => this.(specialAttack := v)
      case SpecialDefence => this.(specialDefence := v)
      case Speed => this.(speed := v)
    }
  }

  const ZeroStats := StatValues(0, 0, 0, 0, 0, 0)

  datatype EggGroup =
    | Monster | Water1 | Bug | Flying | Field | Fairy | Grass | HumanLike
    | Water3 | Mineral | Amorphous | Water2 | DittoGroup | Dragon | Undiscovered

  /** Cobblemon's ability priorities; `Low` marks a hidden ability. */
  datatype Priority = Lowest | Low | Normal | High | Highest

  datatype PotentialAbility = PotentialAbility(template: AbilityId, priority: Priority)

  /**
   * Form data of one species. `maleRatio` is the male percentage already
   * converted to an integer; a negative value means the species is genderless.
   */
  datatype SpeciesInfo = SpeciesInfo(
    preEvolution: Option<SpeciesId>,
    eggGroups: set<EggGroup>,
    baseFriendship: int,
    maleRatio: int,
    abilities: seq<PotentialAbility>)

  /** The species registry. */
  type Dex = map<SpeciesId, SpeciesInfo>

  /**
   * A held item as two already-extracted names: the namespaced item id
   * (`power_band`, `everstone`, ...) and the legacy `breedItem` tag text
   * (`Power Band`, `Everstone`, ...); either may be empty.
   */
  datatype HeldItem = HeldItem(official: string, legacy: string)

  datatype Creature = Creature(
    species: SpeciesId,
    gender: Gender,
    heldItem: HeldItem,
    originalTrainer: Option<Player>,
    ivs: StatValues,
    nature: Nature,
    ability: AbilityId)

  /** Every pre-evolution link of the registry points at a registered species. */
  predicate Closed(dex: Dex) {
    forall s | s in dex && dex[s].preEvolution.Some? :: dex[s].preEvolution.value in dex
  }
}

=== FILE: eligibility.dfy ===
/**
 * The pair check run before breeding: an ordered list of rules, the first
 * failing rule deciding the reason the breed is cancelled.
 */
module Eligibility {
  import opened Creatures

  datatype Reason =
    | SameGenders            // rule 1
    | DittoDisabled          // rule 2
    | TwoDittos              // rule 3
    | UndiscoveredEggGroup   // rule 4
    | DifferingGenderless    // rule 5a
    | GenderlessWithRegular  // rule 5b
    | NoSharedEggGroup       // rule 5c

  /** A passing pair records whether it is ditto or same-species breeding. */
  datatype Verdict = Pass(dittoOrSelf: bool) | Fail(reason: Reason)

  predicate IsDitto(c: Creature) { c.species == Ditto }

  predicate Registered(dex: Dex, c: Creature) { c.species in dex }

  /** None of rules 1-4 (genders, ditto toggle, two dittos, undiscovered egg group) fails. */
  predicate FirstFourPass(dex: Dex, a: Creature, b: Creature, dittoBreeding: bool)
    requires Registered(dex, a) && Registered(dex, b)
  {
    && (a.gender != b.gender || a.gender == Genderless)
    && (IsDitto(a) || IsDitto(b) ==> dittoBreeding)
    && !(IsDitto(a) && IsDitto(b))
    && Undiscovered !in dex[a.species].eggGroups
    && Undiscovered !in dex[b.species].eggGroups
  }

  /**
   * The breeding rules stated as one condition, independently of their
   * order: opposite genders or two genderless ones; a ditto only when ditto
   * breeding is on, and never two; no undiscovered egg group; and without a
   * ditto, two gendered parents sharing an egg group.
   */
  predicate Compatible(dex: Dex, a: Creature, b: Creature, dittoBreeding: bool)
    requires Registered(dex, a) && Registered(dex, b)
  {
    && FirstFourPass(dex, a, b, dittoBreeding)
    && (!IsDitto(a) && !IsDitto(b) ==>
          && a.gender != Genderless && b.gender != Genderless
          && dex[a.species].eggGroups * dex[b.species].eggGroups != {})
  }

  /** The pair check, rule by rule in the order the breeding command applies them. */
  function Validate(dex: Dex, a: Creature, b: Creature, dittoBreeding: bool): (v: Verdict)
    requires Registered(dex, a) && Registered(dex, b)
    // Each reason is returned exactly when its rule fails and no earlier rule did.
    ensures v == Fail(SameGenders) <==> a.gender == b.gender && a.gender != Genderless
    ensures v == Fail(DittoDisabled) <==>
              (a.gender != b.gender || a.gender == Genderless)
              && !dittoBreeding && (IsDitto(a) || IsDitto(b))
    ensures v == Fail(TwoDittos) <==>
              (a.gender != b.gender || a.gender == Genderless)
              && dittoBreeding && IsDitto(a) && IsDitto(b)
    ensures v == Fail(UndiscoveredEggGroup) <==>
              (a.gender != b.gender || a.gender == Genderless)
              && (IsDitto(a) || IsDitto(b) ==> dittoBreeding)
              && !(IsDitto(a) && IsDitto(b))
              && (Undiscovered in dex[a.species].eggGroups || Undiscovered in dex[b.species].eggGroups)
    // Rules 5a-5c apply only without a ditto.
    ensures v == Fail(DifferingGenderless) <==>
              FirstFourPass(dex, a, b, dittoBreeding) && !IsDitto(a) && !IsDitto(b)
              && a.gender == Genderless && b.gender == Genderless && a.species != b.species
    ensures v == Fail(GenderlessWithRegular) <==>
              FirstFourPass(dex, a, b, dittoBreeding) && !IsDitto(a) && !IsDitto(b)
              && (a.gender == Genderless || b.gender == Genderless)
              && !(a.gender == Genderless && b.gender == Genderless && a.species != b.species)
    ensures v == Fail(NoSharedEggGroup) <==>
              FirstFourPass(dex, a, b, dittoBreeding) && !IsDitto(a) && !IsDitto(b)
              && a.gender != Genderless && b.gender != Genderless
              && dex[a.species].eggGroups * dex[b.species].eggGroups == {}
    // Passing is exactly compatibility, and the flag marks ditto or same-species pairs.
    ensures v.Pass? <==> Compatible(dex, a, b, dittoBreeding)
    ensures v.Pass? ==> (v.dittoOrSelf <==> IsDitto(a) || IsDitto(b) || a.species == b.species)
  {
    var groupsA := dex[a.species].eggGroups;
    var groupsB := dex[b.species].eggGroups;
    if a.gender == b.gender && a.gender != Genderless then Fail(SameGenders)
    else if !dittoBreeding && (IsDitto(a) || IsDitto(b)) then Fail(DittoDisabled)
    else if IsDitto(a) && IsDitto(b) then Fail(TwoDittos)
    else if Undiscovered in groupsA || Undiscovered in groupsB then Fail(UndiscoveredEggGroup)
    else if !(IsDitto(a) || IsDitto(b)) && a.gender == Genderless && b.gender == Genderless
            && a.species != b.species then Fail(DifferingGenderless)
    else if !(IsDitto(a) || IsDitto(b)) && (a.gender == Genderless || b.gender == Genderless) then
      Fail(GenderlessWithRegular)
    else if !(IsDitto(a) || IsDitto(b)) && groupsA * groupsB == {} then Fail(NoSharedEggGroup)
    else Pass(IsDitto(a) || IsDitto(b) || a.species == b.species)
  }

  /** The order of the two parents does not matter to the check. */
  lemma ValidateSymmetric(dex: Dex, a: Creature, b: Creature, dittoBreeding: bool)
    requires Registered(dex, a) && Registered(dex, b)
    ensures Validate(dex, a, b, dittoBreeding) == Validate(dex, b, a, dittoBreeding)
  {
  }

  /**
   * Without a ditto a passing pair is one male and one female, so exactly one
   * of them is the mother; two genderless parents of one species are refused.
   */
  lemma PassWithoutDittoHasMother(dex: Dex, a: Creature, b: Creature, dittoBreeding: bool)
    requires Registered(dex, a) && Registered(dex, b)
    requires Validate(dex, a, b, dittoBreeding).Pass? && !IsDitto(a) && !IsDitto(b)
    ensures (a.gender == Female && b.gender == Male) || (a.gender == Male && b.gender == Female)
  {
  }

  /** Two genderless parents of one species, neither a ditto, are refused as genderless with a regular one. */
  lemma SameSpeciesGenderlessRefused(dex: Dex, a: Creature, b: Creature, dittoBreeding: bool)
    requires Registered(dex, a) && Registered(dex, b)
    requires a.gender == Genderless && b.gender == Genderless && a.species == b.species && !IsDitto(a)
    requires Undiscovered !in dex[a.species].eggGroups
    ensures Validate(dex, a, b, dittoBreeding) == Fail(GenderlessWithRegular)
  {
  }
}

=== FILE: held_items.dfy ===
/**
 * The held items the breeding engine recognises. Each item is looked up in
 * two forms: the namespaced item id and the legacy `breedItem` tag text.
 */
module HeldItems {
  import opened Creatures

  /** Power items by item id, each guaranteeing the inheritance of one stat channel. */
  const PowerItems: map<string, Stat> := map[
    "power_anklet" := Speed,
    "power_band" := SpecialDefence,
    "power_belt" := Defence,
    "power_bracer" := Attack,
    "power_lens" := SpecialAttack,
    "power_weight" := Hp]

  /** Power items by legacy tag text. */
  const LegacyPowerItems: map<string, Stat> := map[
    "Power Anklet" := Speed,
    "Power Band" := SpecialDefence,
    "Power Belt" := Defence,
    "Power Bracer" := Attack,
    "Power Lens" := SpecialAttack,
    "Power Weight" := Hp]

  const DestinyKnot := "destiny_knot"
  const LegacyDestinyKnot := "Destiny Knot"
  const Everstone := "everstone"
  const LegacyEverstone := "Everstone"

  /** The item ids that take part in stat-potential inheritance. */
  const BreedingItems: set<string> := {
    "power_anklet", "power_band", "power_belt", "power_bracer",
    "power_lens", "power_weight", "destiny_knot"}

  /** The item id as the inheritance code sees it: anything not a breeding item reads as "". */
  function BreedingItem(official: string): (r: string)
    ensures r == "" || r in BreedingItems
    ensures r in BreedingItems <==> official in BreedingItems
    ensures r != "" ==> r == official
  {
    if official in BreedingItems then official else ""
  }

  predicate HoldsPowerItem(item: HeldItem) {
    BreedingItem(item.official) in PowerItems || item.legacy in LegacyPowerItems
  }

  predicate HoldsDestinyKnot(item: HeldItem) {
    BreedingItem(item.official) == DestinyKnot || item.legacy == LegacyDestinyKnot
  }

  /** The keep-nature test reads the item id unfiltered. */
  predicate HoldsEverstone(item: HeldItem) {
    item.official == Everstone || item.legacy == LegacyEverstone
  }

  /**
   * Excludes an item whose id is a breeding item other than a power item
   * while its legacy tag names a power item: the inheritance code would then
   * look the id up in the power table and find nothing.
   */
  predicate Consistent(item: HeldItem) {
    BreedingItem(item.official) == ""
    || BreedingItem(item.official) in PowerItems
    || item.legacy !in LegacyPowerItems
  }

  /**
   * The stat channel a power item guarantees. The item id wins when it names
   * a power item; the legacy tag is consulted otherwise.
   */
  function PowerStat(item: HeldItem): (s: Stat)
    requires HoldsPowerItem(item) && Consistent(item)
    ensures BreedingItem(item.official) in PowerItems ==> s == PowerItems[item.official]
    ensures BreedingItem(item.official) !in PowerItems ==> s == LegacyPowerItems[item.legacy]
  {
    if BreedingItem(item.official) != "" then PowerItems[BreedingItem(item.official)]
    else LegacyPowerItems[item.legacy]
  }

  /** Both power tables cover every stat channel and agree on what each item boosts. */
  lemma PowerTablesAgree()
    ensures forall s: Stat :: s in PowerItems.Values && s in LegacyPowerItems.Values
    ensures forall k | k in PowerItems :: k in BreedingItems
    ensures PowerItems["power_anklet"] == LegacyPowerItems["Power Anklet"]
    ensures PowerItems["power_band"] == LegacyPowerItems["Power Band"]
    ensures PowerItems["power_belt"] == LegacyPowerItems["Power Belt"]
    ensures PowerItems["power_bracer"] == LegacyPowerItems["Power Bracer"]
    ensures PowerItems["power_lens"] == LegacyPowerItems["Power Lens"]
    ensures PowerItems["power_weight"] == LegacyPowerItems["Power Weight"]
  {
    forall s: Stat
      ensures s in PowerItems.Values && s in LegacyPowerItems.Values
    {
      match s
      case Speed => assert PowerItems["power_anklet"] == s && LegacyPowerItems["Power Anklet"] == s;
      case SpecialDefence => assert PowerItems["power_band"] == s && LegacyPowerItems["Power Band"] == s;
      case Defence => assert PowerItems["power_belt"] == s && LegacyPowerItems["Power Belt"] == s;
      case Attack => assert PowerItems["power_bracer"] == s && LegacyPowerItems["Power Bracer"] == s;
      case SpecialAttack => assert PowerItems["power_lens"] == s && LegacyPowerItems["Power Lens"] == s;
      case Hp => assert PowerItems["power_weight"] == s && LegacyPowerItems["Power Weight"] == s;
    }
  }
}

=== FILE: iv_inheritance.dfy ===
/**
 * Inheritance of the six individual values (IVs). A quota of channels (3, or
 * 5 with a destiny knot) is copied from the parents, a power item's channel
 * first; the channels are drawn without replacement from a pool, and every
 * channel left in the pool gets a fresh value in [0,31].
 */
module IvInheritance {
  import opened Wrappers
  import opened Creatures
  import opened HeldItems

  datatype Parent = First | Second

  /** Where a channel's value came from. */
  datatype Source = Inherited(parent: Parent) | Rolled

  /** One write of an offspring IV, in the order the inheritance performs them. */
  datatype IvWrite = IvWrite(stat: Stat, source: Source, value: int)

  /** The draws for one inherited channel: an index into the pool and a parent coin. */
  datatype Pick = Pick(index: int, parent: int)

  /** The pool of undecided channels, in the order it is built. */
  const InitialPool: seq<Stat> := [Speed, SpecialDefence, Defence, Attack, SpecialAttack, Hp]

  predicate Distinct(xs: seq<Stat>) {
    forall i, j | 0 <= i < j < |xs| :: xs[i] != xs[j]
  }

  /** Appending a new channel keeps a sequence of channels free of repeats. */
  lemma DistinctSnoc(xs: seq<Stat>, s: Stat)
    requires Distinct(xs) && s !in xs
    ensures Distinct(xs + [s])
  {
  }

  /** The initial pool holds every channel once. */
  lemma InitialPoolComplete()
    ensures Distinct(InitialPool)
    ensures forall s: Stat :: s in InitialPool
  {
    forall s: Stat
      ensures s in InitialPool
    {
      match s
      case Speed => assert InitialPool[0] == s;
      case SpecialDefence => assert InitialPool[1] == s;
      case Defence => assert InitialPool[2] == s;
      case Attack => assert InitialPool[3] == s;
      case SpecialAttack => assert InitialPool[4] == s;
      case Hp => assert InitialPool[5] == s;
    }
  }

  /** The channels written, in order. */
  function Written(ws: seq<IvWrite>): (r: seq<Stat>)
    ensures |r| == |ws|
    ensures forall i | 0 <= i < |ws| :: r[i] == ws[i].stat
  {
    seq(|ws|, i requires 0 <= i < |ws| => ws[i].stat)
  }

  /** The index of the first occurrence of `s`: the entry `List.remove(Object)` drops. */
  function FirstIndex(pool: seq<Stat>, s: Stat): (i: nat)
    requires s in pool
    ensures i < |pool| && pool[i] == s && s !in pool[..i]
  {
    if pool[0] == s then 0
    else
      var j := FirstIndex(pool[1..], s);
      assert pool[..j + 1] == [pool[0]] + pool[1..][..j];
      j + 1
  }

  /** Java's `List.remove(Object)`: drops the first occurrence of `s`, if any. */
  function Remove(pool: seq<Stat>, s: Stat): (r: seq<Stat>)
    ensures s in pool ==> |r| == |pool| - 1
    ensures s in pool ==> r == RemoveAt(pool, FirstIndex(pool, s))
    ensures s !in pool ==> r == pool
    ensures Distinct(pool) ==> Distinct(r) && forall t: Stat :: t in r <==> t in pool && t != s
  {
    if |pool| == 0 then []
    else if pool[0] == s then pool[1..]
    else
      var rest := Remove(pool[1..], s);
      assert Distinct(pool) ==> Distinct(pool[1..]) && pool[0] !in pool[1..];
      assert s in pool ==> s in pool[1..];
      if s in pool[1..] then
        RemoveAtCons(pool, FirstIndex(pool[1..], s));
        [pool[0]] + rest
      else
        [pool[0]] + rest
  }

  /** Java's `List.remove(int)`: drops the element at index `i`. */
  function RemoveAt(pool: seq<Stat>, i: int): (r: seq<Stat>)
    requires 0 <= i < |pool|
    ensures |r| == |pool| - 1
    ensures forall k | 0 <= k < |r| :: r[k] == if k < i then pool[k] else pool[k + 1]
    ensures Distinct(pool) ==> Distinct(r) && forall t: Stat :: t in r <==> t in pool && t != pool[i]
  {
    var r := pool[..i] + pool[i + 1..];
    assert forall k | 0 <= k < |r| :: r[k] == if k < i then pool[k] else pool[k + 1];
    r
  }

  /** Removing past the head commutes with keeping the head. */
  lemma RemoveAtCons(pool: seq<Stat>, j: int)
    requires 0 <= j < |pool| - 1
    ensures [pool[0]] + RemoveAt(pool[1..], j) == RemoveAt(pool, j + 1)
  {
    assert [pool[0]] + pool[1..][..j] == pool[..j + 1];
    assert pool[1..][j + 1..] == pool[j + 2..];
  }

  /** The guaranteed-channel quota: 5 if either parent holds a destiny knot, else 3. */
  function Quota(item1: HeldItem, item2: HeldItem): (q: nat)
    ensures q == 5 <==> HoldsDestinyKnot(item1) || HoldsDestinyKnot(item2)
    ensures q == 3 || q == 5
  {
    if HoldsDestinyKnot(item1) || HoldsDestinyKnot(item2) then 5 else 3
  }

  /**
   * Whose power item decides the guaranteed channel: a coin between two
   * holders, the only holder otherwise, nobody without a power item.
   */
  function PowerHolder(item1: HeldItem, item2: HeldItem, coin: int): (h: Option<Parent>)
    ensures h.None? <==> !HoldsPowerItem(item1) && !HoldsPowerItem(item2)
    ensures h == Some(First) ==> HoldsPowerItem(item1)
    ensures h == Some(Second) ==> HoldsPowerItem(item2)
    ensures HoldsPowerItem(item1) && HoldsPowerItem(item2) ==> (h == Some(First) <==> coin == 0)
  {
    if HoldsPowerItem(item1) && HoldsPowerItem(item2) then
      if coin == 0 then Some(First) else Some(Second)
    else if HoldsPowerItem(item1) then Some(First)
    else if HoldsPowerItem(item2) then Some(Second)
    else None
  }

  function PowerUsed(item1: HeldItem, item2: HeldItem): nat {
    if HoldsPowerItem(item1) || HoldsPowerItem(item2) then 1 else 0
  }

  /** Size of the pool when random picking starts. */
  function PoolStart(item1: HeldItem, item2: HeldItem): nat {
    |InitialPool| - PowerUsed(item1, item2)
  }

  /** The number of channels picked at random from the pool. */
  function Needed(item1: HeldItem, item2: HeldItem): (n: nat)
    ensures n < PoolStart(item1, item2)
    ensures n + PowerUsed(item1, item2) == Quota(item1, item2)
  {
    Quota(item1, item2) - PowerUsed(item1, item2)
  }

  /** Every pool draw is below the pool size at the time it is made, which is at least 2. */
  lemma PickBoundsPositive(item1: HeldItem, item2: HeldItem, k: nat)
    requires k < Needed(item1, item2)
    ensures PoolStart(item1, item2) - k >= 2
  {
  }

  /** The pool and parent draws fit their `nextInt` bounds, one pick per needed channel. */
  predicate PicksFit(item1: HeldItem, item2: HeldItem, picks: seq<Pick>) {
    && |picks| == Needed(item1, item2)
    && forall k | 0 <= k < |picks| ::
         0 <= picks[k].index < PoolStart(item1, item2) - k && 0 <= picks[k].parent < 2
  }

  /** The fresh values, one per channel left over, each a `nextInt(32)`. */
  predicate FillFits(item1: HeldItem, item2: HeldItem, fill: seq<int>) {
    && |fill| == |InitialPool| - Quota(item1, item2)
    && forall k | 0 <= k < |fill| :: 0 <= fill[k] < 32
  }

  function ParentIvs(p: Parent, ivs1: StatValues, ivs2: StatValues): StatValues {
    if p == First then ivs1 else ivs2
  }

  function ParentItem(p: Parent, item1: HeldItem, item2: HeldItem): HeldItem {
    if p == First then item1 else item2
  }

  /** Every written value is the inheriting parent's value, or a fresh one in [0,31]. */
  predicate Faithful(ws: seq<IvWrite>, ivs1: StatValues, ivs2: StatValues) {
    forall i | 0 <= i < |ws| ::
      match ws[i].source
      case Inherited(p) => ws[i].value == ParentIvs(p, ivs1, ivs2).Get(ws[i].stat)
      case Rolled => 0 <= ws[i].value <= 31
  }

  /**
   * The pool and the writes so far partition the six channels: neither
   * repeats a channel and every channel is in exactly one of them.
   */
  predicate Partition(pool: seq<Stat>, ws: seq<IvWrite>) {
    && |pool| + |ws| == 6
    && Distinct(pool) && Distinct(Written(ws))
    && forall s: Stat :: s in pool <==> s !in Written(ws)
  }

  /** Moving the channel at `i` from the pool to the writes keeps the partition. */
  lemma PartitionStep(pool: seq<Stat>, ws: seq<IvWrite>, i: int, w: IvWrite)
    requires Partition(pool, ws) && 0 <= i < |pool| && w.stat == pool[i]
    ensures Partition(RemoveAt(pool, i), ws + [w])
  {
    DistinctSnoc(Written(ws), w.stat);
    assert Written(ws + [w]) == Written(ws) + [w.stat];
  }

  lemma FaithfulSnoc(ws: seq<IvWrite>, w: IvWrite, ivs1: StatValues, ivs2: StatValues)
    requires Faithful(ws, ivs1, ivs2) && Faithful([w], ivs1, ivs2)
    ensures Faithful(ws + [w], ivs1, ivs2)
  {
  }

  /** The parent a coin of 0 or 1 chooses. */
  function CoinParent(coin: int): Parent {
    if coin == 0 then First else Second
  }

  /** The pool once the power item's channel, if any, has been taken out. */
  function PoolAfterPower(item1: HeldItem, item2: HeldItem, coin: int): (pool: seq<Stat>)
    requires Consistent(item1) && Consistent(item2)
    ensures |pool| == PoolStart(item1, item2)
  {
    InitialPoolComplete();
    match PowerHolder(item1, item2, coin)
    case None => InitialPool
    case Some(h) => Remove(InitialPool, PowerStat(ParentItem(h, item1, item2)))
  }

  /** The pool after the first `k` picks, each removing the channel at its index. */
  function PoolAfter(pool: seq<Stat>, picks: seq<Pick>, k: nat): (r: seq<Stat>)
    requires k <= |picks|
    requires forall j | 0 <= j < |picks| :: 0 <= picks[j].index < |pool| - j
    ensures |r| == |pool| - k
    decreases k
  {
    if k == 0 then pool else RemoveAt(PoolAfter(pool, picks, k - 1), picks[k - 1].index)
  }

  /** The writes and pool after the power-item step. */
  function PowerStep(ivs1: StatValues, ivs2: StatValues, item1: HeldItem, item2: HeldItem, coin: int)
    : (r: (seq<Stat>, seq<IvWrite>))
    requires Consistent(item1) && Consistent(item2)
    ensures Partition(r.0, r.1)
    ensures r.0 == PoolAfterPower(item1, item2, coin)
    ensures |r.1| == PowerUsed(item1, item2)
    ensures Faithful(r.1, ivs1, ivs2)
    ensures forall i | 0 <= i < |r.1| :: r.1[i].source.Inherited?
    ensures PowerHolder(item1, item2, coin).Some? ==>
              var h := PowerHolder(item1, item2, coin).value;
              r.1[0].stat == PowerStat(ParentItem(h, item1, item2)) && r.1[0].source == Inherited(h)
  {
    InitialPoolComplete();
    match PowerHolder(item1, item2, coin)
    case None =>
      assert Written([]) == [];
      (InitialPool, [])
    case Some(h) =>
      var s := PowerStat(ParentItem(h, item1, item2));
      var ws := [IvWrite(s, Inherited(h), ParentIvs(h, ivs1, ivs2).Get(s))];
      PowerPartition(ws[0]);
      (Remove(InitialPool, s), ws)
  }

  /** Taking one channel out of the full pool as the first write partitions the six channels. */
  lemma PowerPartition(w: IvWrite)
    ensures Partition(Remove(InitialPool, w.stat), [w])
  {
    InitialPoolComplete();
    assert Written([w]) == [w.stat];
  }

  /**
   * The first `n` picks are the writes from `start` on: the k-th takes the
   * channel at its index in the pool as it then stands, from its coin's parent.
   */
  predicate PicksTaken(ws: seq<IvWrite>, start: nat, pool0: seq<Stat>, picks: seq<Pick>, n: nat)
    requires n <= |picks| && start + n <= |ws|
    requires forall j | 0 <= j < |picks| :: 0 <= picks[j].index < |pool0| - j
  {
    forall k | 0 <= k < n ::
      && ws[start + k].stat == PoolAfter(pool0, picks, k)[picks[k].index]
      && ws[start + k].source == Inherited(CoinParent(picks[k].parent))
  }

  /** The random picks: each takes a pool channel by index and copies it from a coin-chosen parent. */
  method PickChannels(ivs1: StatValues, ivs2: StatValues, pool0: seq<Stat>, ws0: seq<IvWrite>,
                      picks: seq<Pick>)
    returns (pool: seq<Stat>, ws: seq<IvWrite>)
    requires Partition(pool0, ws0) && Faithful(ws0, ivs1, ivs2)
    requires forall k | 0 <= k < |picks| :: 0 <= picks[k].index < |pool0| - k
    ensures Partition(pool, ws) && Faithful(ws, ivs1, ivs2)
    ensures |ws| == |ws0| + |picks|
    ensures ws[..|ws0|] == ws0
    ensures forall i | |ws0| <= i < |ws| :: ws[i].source.Inherited?
    ensures PicksTaken(ws, |ws0|, pool0, picks, |picks|)
    ensures pool == PoolAfter(pool0, picks, |picks|)
  {
    pool, ws := pool0, ws0;
    var k := 0;
    while k < |picks|
      invariant 0 <= k <= |picks|
      invariant |pool| == |pool0| - k && |ws| == |ws0| + k
      invariant Partition(pool, ws) && Faithful(ws, ivs1, ivs2)
      invariant ws[..|ws0|] == ws0
      invariant forall i | |ws0| <= i < |ws| :: ws[i].source.Inherited?
      invariant pool == PoolAfter(pool0, picks, k)
      invariant PicksTaken(ws, |ws0|, pool0, picks, k)
    {
      var pick := picks[k];
      var s := pool[pick.index];
      var parent := CoinParent(pick.parent);
      var w := IvWrite(s, Inherited(parent), ParentIvs(parent, ivs1, ivs2).Get(s));
      PartitionStep(pool, ws, pick.index, w);
      FaithfulSnoc(ws, w, ivs1, ivs2);
      ws := ws + [w];
      pool := RemoveAt(pool, pick.index);
      k := k + 1;
    }
  }

  /** Every channel left in the pool, in pool order, gets a fresh value. */
  method FillRest(ivs1: StatValues, ivs2: StatValues, rest: seq<Stat>, ws0: seq<IvWrite>, fill: seq<int>)
    returns (ws: seq<IvWrite>)
    requires Partition(rest, ws0) && Faithful(ws0, ivs1, ivs2)
    requires |fill| == |rest| && forall k | 0 <= k < |fill| :: 0 <= fill[k] < 32
    ensures Partition([], ws) && Faithful(ws, ivs1, ivs2)
    ensures |ws| == |ws0| + |rest|
    ensures ws[..|ws0|] == ws0
    ensures forall i | |ws0| <= i < |ws| :: ws[i].source.Rolled?
    ensures forall j | 0 <= j < |rest| :: ws[|ws0| + j] == IvWrite(rest[j], Rolled, fill[j])
  {
    ws := ws0;
    var j := 0;
    while j < |rest|
      invariant 0 <= j <= |rest|
      invariant |ws| == |ws0| + j
      invariant Partition(rest[j..], ws) && Faithful(ws, ivs1, ivs2)
      invariant ws[..|ws0|] == ws0
      invariant forall i | |ws0| <= i < |ws| :: ws[i].source.Rolled?
      invariant forall i | 0 <= i < j :: ws[|ws0| + i] == IvWrite(rest[i], Rolled, fill[i])
    {
      var w := IvWrite(rest[j], Rolled, fill[j]);
      PartitionStep(rest[j..], ws, 0, w);
      assert RemoveAt(rest[j..], 0) == rest[j + 1..];
      FaithfulSnoc(ws, w, ivs1, ivs2);
      ws := ws + [w];
      j := j + 1;
    }
  }

  /**
   * After the `powerUsed` power writes, the k-th write is the pick
   * `picks[k]`: the channel at its index in the pool as it then stands,
   * copied from its coin's parent; the writes from `quota` on give the
   * pool's leftovers, in pool order, the fresh values.
   */
  predicate FollowsDraws(ws: seq<IvWrite>, powerUsed: nat, quota: nat, pool: seq<Stat>,
                         picks: seq<Pick>, fill: seq<int>)
    requires powerUsed + |picks| == quota && quota + |fill| == |ws|
    requires |pool| == |picks| + |fill|
    requires forall j | 0 <= j < |picks| :: 0 <= picks[j].index < |pool| - j
  {
    && PicksTaken(ws, powerUsed, pool, picks, |picks|)
    && (forall j | 0 <= j < |fill| ::
          ws[quota + j] == IvWrite(PoolAfter(pool, picks, |picks|)[j], Rolled, fill[j]))
  }

  /** Picks recorded in a prefix of the writes stay recorded in the whole. */
  lemma PicksTakenPrefix(ws1: seq<IvWrite>, ws: seq<IvWrite>, start: nat, pool0: seq<Stat>,
                         picks: seq<Pick>)
    requires start + |picks| <= |ws1| <= |ws| && ws[..|ws1|] == ws1
    requires forall j | 0 <= j < |picks| :: 0 <= picks[j].index < |pool0| - j
    requires PicksTaken(ws1, start, pool0, picks, |picks|)
    ensures PicksTaken(ws, start, pool0, picks, |picks|)
  {
    assert forall i | 0 <= i < |ws1| :: ws[i] == ws[..|ws1|][i];
  }

  /** Picks recorded in a prefix and fresh values written after it make writes that follow the draws. */
  lemma FollowsDrawsOfParts(ws: seq<IvWrite>, ws1: seq<IvWrite>, start: nat, pool0: seq<Stat>,
                            pool: seq<Stat>, picks: seq<Pick>, fill: seq<int>)
    requires start + |picks| == |ws1| && |ws1| + |fill| == |ws| && |pool0| == |picks| + |fill|
    requires forall j | 0 <= j < |picks| :: 0 <= picks[j].index < |pool0| - j
    requires ws[..|ws1|] == ws1
    requires PicksTaken(ws1, start, pool0, picks, |picks|)
    requires pool == PoolAfter(pool0, picks, |picks|)
    requires forall j | 0 <= j < |fill| :: ws[|ws1| + j] == IvWrite(pool[j], Rolled, fill[j])
    ensures FollowsDraws(ws, start, |ws1|, pool0, picks, fill)
  {
    PicksTakenPrefix(ws1, ws, start, pool0, picks);
  }

  /** The writes follow the draws of a pair holding `item1` and `item2`. */
  predicate InheritedAsDrawn(ws: seq<IvWrite>, item1: HeldItem, item2: HeldItem, coin: int,
                             picks: seq<Pick>, fill: seq<int>)
    requires Consistent(item1) && Consistent(item2)
    requires PicksFit(item1, item2, picks) && FillFits(item1, item2, fill) && |ws| == 6
  {
    FollowsDraws(ws, PowerUsed(item1, item2), Quota(item1, item2), PoolAfterPower(item1, item2, coin),
                 picks, fill)
  }

  /**
   * The random picks and then the fresh values, after the writes `ws0` of
   * the power step, which are all inherited.
   */
  method PicksThenFill(ivs1: StatValues, ivs2: StatValues, pool0: seq<Stat>, ws0: seq<IvWrite>,
                       picks: seq<Pick>, fill: seq<int>)
    returns (ws: seq<IvWrite>)
    requires Partition(pool0, ws0) && Faithful(ws0, ivs1, ivs2)
    requires forall i | 0 <= i < |ws0| :: ws0[i].source.Inherited?
    requires forall k | 0 <= k < |picks| :: 0 <= picks[k].index < |pool0| - k
    requires |fill| == |pool0| - |picks| && forall k | 0 <= k < |fill| :: 0 <= fill[k] < 32
    ensures |ws| == 6 && Partition([], ws) && Faithful(ws, ivs1, ivs2)
    ensures forall i | 0 <= i < |ws0| :: ws[i] == ws0[i]
    ensures forall i | 0 <= i < |ws| :: ws[i].source.Rolled? <==> i >= |ws0| + |picks|
    ensures FollowsDraws(ws, |ws0|, |ws0| + |picks|, pool0, picks, fill)
  {
    var pool, ws1 := PickChannels(ivs1, ivs2, pool0, ws0, picks);
    ws := FillRest(ivs1, ivs2, pool, ws1, fill);
    forall i | 0 <= i < |ws1|
      ensures ws[i] == ws1[i]
    {
      assert ws[..|ws1|][i] == ws[i];
    }
    forall i | 0 <= i < |ws0|
      ensures ws[i] == ws0[i]
    {
      assert ws1[..|ws0|][i] == ws1[i];
    }
    FollowsDrawsOfParts(ws, ws1, |ws0|, pool0, pool, picks, fill);
  }

  /** The inheritance of the six IVs, returning the writes it performs in order. */
  method InheritIvs(ivs1: StatValues, ivs2: StatValues, item1: HeldItem, item2: HeldItem,
                    coin: int, picks: seq<Pick>, fill: seq<int>)
    returns (ws: seq<IvWrite>)
    requires Consistent(item1) && Consistent(item2)
    requires HoldsPowerItem(item1) && HoldsPowerItem(item2) ==> 0 <= coin < 2
    requires PicksFit(item1, item2, picks)
    requires FillFits(item1, item2, fill)
    // Each of the six channels is written exactly once.
    ensures |ws| == 6 && Distinct(Written(ws))
    ensures forall s: Stat :: s in Written(ws)
    // The first `quota` writes are inherited, the rest are fresh.
    ensures forall i | 0 <= i < |ws| :: ws[i].source.Rolled? <==> i >= Quota(item1, item2)
    ensures Faithful(ws, ivs1, ivs2)
    // A power item's channel comes first, from its holder.
    ensures PowerHolder(item1, item2, coin).Some? ==>
              var h := PowerHolder(item1, item2, coin).value;
              ws[0].stat == PowerStat(ParentItem(h, item1, item2)) && ws[0].source == Inherited(h)
    // Then the picks, in draw order, then the pool's leftovers with the fresh values, in pool order.
    ensures InheritedAsDrawn(ws, item1, item2, coin, picks, fill)
  {
    var (pool0, ws0) := PowerStep(ivs1, ivs2, item1, item2, coin);
    ws := PicksThenFill(ivs1, ivs2, pool0, ws0, picks, fill);
  }

  /** The offspring's IVs after the writes are applied in order to its starting values. */
  function Apply(start: StatValues, ws: seq<IvWrite>): StatValues
    decreases |ws|
  {
    if |ws| == 0 then start else Apply(start.Set(ws[0].stat, ws[0].value), ws[1..])
  }

  /** The offspring's IVs, starting from the base parent's, and the writes that produce them. */
  method OffspringIvs(start: StatValues, ivs1: StatValues, ivs2: StatValues, item1: HeldItem,
                      item2: HeldItem, coin: int, picks: seq<Pick>, fill: seq<int>)
    returns (ivs: StatValues, ws: seq<IvWrite>)
    requires Consistent(item1) && Consistent(item2)
    requires HoldsPowerItem(item1) && HoldsPowerItem(item2) ==> 0 <= coin < 2
    requires PicksFit(item1, item2, picks) && FillFits(item1, item2, fill)
    ensures |ws| == 6 && Distinct(Written(ws))
    ensures forall i | 0 <= i < 6 :: ivs.Get(ws[i].stat) == ws[i].value
    ensures forall i | 0 <= i < 6 :: ws[i].source.Rolled? <==> i >= Quota(item1, item2)
    ensures Faithful(ws, ivs1, ivs2)
    ensures PowerHolder(item1, item2, coin).Some? ==>
              var h := PowerHolder(item1, item2, coin).value;
              && ws[0].stat == PowerStat(ParentItem(h, item1, item2))
              && ws[0].source == Inherited(h)
              && ivs.Get(ws[0].stat) == ParentIvs(h, ivs1, ivs2).Get(ws[0].stat)
    ensures InheritedAsDrawn(ws, item1, item2, coin, picks, fill)
  {
    ws := InheritIvs(ivs1, ivs2, item1, item2, coin, picks, fill);
    ivs := Apply(start, ws);
    forall i | 0 <= i < 6
      ensures ivs.Get(ws[i].stat) == ws[i].value
    {
      ApplyDistinct(start, ws, i);
    }
  }

  /** When no channel is written twice, each channel ends with the value of its write. */
  lemma {:induction false} ApplyDistinct(start: StatValues, ws: seq<IvWrite>, i: int)
    requires Distinct(Written(ws)) && 0 <= i < |ws|
    ensures Apply(start, ws).Get(ws[i].stat) == ws[i].value
    decreases |ws|
  {
    if i == 0 {
      ApplyUntouched(start.Set(ws[0].stat, ws[0].value), ws[1..], ws[0].stat);
    } else {
      assert Written(ws[1..]) == Written(ws)[1..];
      ApplyDistinct(start.Set(ws[0].stat, ws[0].value), ws[1..], i - 1);
    }
  }

  /** A channel never written keeps its starting value. */
  lemma {:induction false} ApplyUntouched(start: StatValues, ws: seq<IvWrite>, s: Stat)
    requires s !in Written(ws)
    ensures Apply(start, ws).Get(s) == start.Get(s)
    decreases |ws|
  {
    if |ws| > 0 {
      assert Written(ws[1..]) == Written(ws)[1..];
      ApplyUntouched(start.Set(ws[0].stat, ws[0].value), ws[1..], s);
    }
  }
}

=== FILE: java_arith.dfy ===
/**
 * Java's fixed-width integers and its truncating division, which differ from
 * Dafny's unbounded integers and Euclidean `/` and `%`.
 */
module JavaArith {

  const MinInt32: int := -0x8000_0000
  const MaxInt32: int := 0x7fff_ffff

  /** The values of a Java `int`. */
  type int32 = x: int | MinInt32 <= x <= MaxInt32

  /** Java's `a / b` for a positive divisor: the quotient rounded toward zero. */
  function Quot(a: int, b: int): (q: int)
    requires b > 0
    ensures a >= 0 ==> 0 <= a - b * q < b
    ensures a < 0 ==> -b < a - b * q <= 0
  {
    if a >= 0 then a / b else -((-a) / b)
  }

  /** Java's `a % b` for a positive divisor: the remainder takes the sign of the dividend. */
  function Rem(a: int, b: int): (r: int)
    requires b > 0
    ensures a == b * Quot(a, b) + r
    ensures a >= 0 ==> 0 <= r < b
    ensures a < 0 ==> -b < r <= 0
  {
    a - b * Quot(a, b)
  }
}

=== FILE: offspring.dfy ===
/**
 * Synthesis of the offspring of a validated pair: base parent, base-form
 * species, friendship, shiny roll, ability, gender, IVs and nature. Every
 * random value is an explicit draw whose range the caller guarantees.
 */
module Offspring {
  import opened Wrappers
  import opened JavaArith
  import opened Creatures
  import opened Pedigree
  import opened HeldItems
  import opened Eligibility
  import opened IvInheritance

  // ----- Base parent and species -----

  /**
   * The parent the offspring is cloned from: for ditto or same-species
   * breeding the first parent unless it is the ditto, otherwise the female.
   */
  function BaseParent(p1: Creature, p2: Creature, dittoOrSelf: bool): (b: Creature)
    ensures b == p1 || b == p2
    ensures dittoOrSelf && p1.species != Ditto ==> b == p1
    ensures dittoOrSelf && p1.species == Ditto ==> b == p2
    ensures !dittoOrSelf && p1.gender == Female ==> b == p1
    ensures !dittoOrSelf && p1.gender != Female ==> b == p2
  {
    if dittoOrSelf then (if p1.species != Ditto then p1 else p2)
    else if p1.gender == Female then p1 else p2
  }

  /**
   * After a passing check the base parent is never a ditto; outside ditto
   * and same-species breeding it is the female; for same-species breeding
   * it has the common species.
   */
  lemma BaseParentAfterValidation(dex: Dex, p1: Creature, p2: Creature, dittoBreeding: bool)
    requires Registered(dex, p1) && Registered(dex, p2)
    requires Validate(dex, p1, p2, dittoBreeding).Pass?
    ensures var d := Validate(dex, p1, p2, dittoBreeding).dittoOrSelf;
            var b := BaseParent(p1, p2, d);
            && b.species != Ditto
            && (!d ==> b.gender == Female)
            && (d && !IsDitto(p1) && !IsDitto(p2) ==> b.species == p1.species == p2.species)
  {
  }

  /** Special offspring-only remap applied after the base-form walk. */
  function Remap(s: SpeciesId): (r: SpeciesId)
    ensures r != Manaphy
    ensures s == Manaphy ==> r == Phione
    ensures s != Manaphy ==> r == s
  {
    if s == Manaphy then Phione else s
  }

  /** The registry the engine needs: closed, acyclic, and holding the remap target. */
  predicate WellFormedDex(dex: Dex) {
    Closed(dex) && Acyclic(dex) && Phione in dex
  }

  /** The offspring's species: the base form of the base parent's species, remapped. */
  function OffspringSpecies(dex: Dex, base: Creature): (s: SpeciesId)
    requires WellFormedDex(dex) && base.species in dex
    ensures s in dex && s != Manaphy
    ensures s == Phione || (s == BaseForm(dex, base.species) && dex[s].preEvolution.None?)
    ensures BaseForm(dex, base.species) == Manaphy ==> s == Phione
    ensures BaseForm(dex, base.species) != Manaphy ==> s == BaseForm(dex, base.species)
  {
    Remap(BaseForm(dex, base.species))
  }

  /** Two parents already in their base form of one species produce that species. */
  lemma BaseFormParentsBreedTrue(dex: Dex, p1: Creature, p2: Creature, dittoOrSelf: bool)
    requires WellFormedDex(dex) && p1.species in dex && p2.species in dex
    requires p1.species == p2.species && dex[p1.species].preEvolution.None? && p1.species != Manaphy
    ensures OffspringSpecies(dex, BaseParent(p1, p2, dittoOrSelf)) == p1.species
  {
  }

  // ----- Friendship -----

  /** Friendship width: a draw reduced modulo 77. */
  const FriendshipSpread := 77

  /**
   * The friendship handed to the library: Java's `draw % 77` (signed) plus
   * the species' base friendship; no clamping happens here.
   */
  function Friendship(draw: int32, base: int): (f: int)
    ensures base - 76 <= f <= base + 76
    ensures draw >= 0 ==> f >= base
    ensures draw <= 0 ==> f <= base
    ensures (f - base - draw) % FriendshipSpread == 0
  {
    Rem(draw, FriendshipSpread) + base
  }

  // ----- Shiny -----

  /** The hard-coded divisor of the pseudo-Masuda rate. */
  const MasudaDivisor := 6

  /** Some parent's recorded original trainer is set and is not the breeder. */
  function Masuda(p1: Creature, p2: Creature, breeder: Player): (m: bool)
    ensures m ==> p1.originalTrainer.Some? || p2.originalTrainer.Some?
    ensures p1.originalTrainer in {None, Some(breeder)} && p2.originalTrainer in {None, Some(breeder)} ==> !m
    ensures p1.originalTrainer.Some? && p1.originalTrainer != Some(breeder) ==> m
    ensures p2.originalTrainer.Some? && p2.originalTrainer != Some(breeder) ==> m
  {
    (p1.originalTrainer.Some? && p1.originalTrainer.value != breeder)
    || (p2.originalTrainer.Some? && p2.originalTrainer.value != breeder)
  }

  /** The bound of the shiny draw. */
  function EffectiveShinyRate(rate: int, masuda: bool): (e: int)
    requires rate > 0
    ensures 1 <= e <= rate
    ensures !masuda ==> e == rate
    ensures masuda && rate >= MasudaDivisor ==> e == rate / MasudaDivisor
    ensures masuda && rate < MasudaDivisor ==> e == 1
  {
    if masuda then (if rate / MasudaDivisor > 1 then rate / MasudaDivisor else 1) else rate
  }

  /** The shiny roll: never with a non-positive rate, otherwise exactly when the draw is 0. */
  function RollShiny(rate: int, masuda: bool, draw: int): (shiny: bool)
    requires rate > 0 ==> 0 <= draw < EffectiveShinyRate(rate, masuda)
    ensures rate <= 0 ==> !shiny
    ensures rate > 0 ==> (shiny <==> draw == 0)
  {
    rate > 0 && draw == 0
  }

  /** The Masuda condition never narrows the odds: its draw range is never wider. */
  lemma MasudaNeverWorse(rate: int)
    requires rate > 0
    ensures EffectiveShinyRate(rate, true) <= EffectiveShinyRate(rate, false)
    ensures rate >= 2 * MasudaDivisor ==> EffectiveShinyRate(rate, true) < EffectiveShinyRate(rate, false)
  {
  }

  // ----- Ability -----

  /** The hidden-ability candidates of a form, in pool order: its `Low`-priority entries. */
  function HiddenCandidates(pool: seq<PotentialAbility>): (h: seq<AbilityId>)
    ensures |h| <= |pool|
    ensures forall a :: a in h <==> PotentialAbility(a, Low) in pool
    ensures |pool| == 1 && pool[0].priority == Low ==> h == [pool[0].template]
    ensures |pool| == 1 && pool[0].priority != Low ==> h == []
  {
    if |pool| == 0 then []
    else
      var rest := HiddenCandidates(pool[1..]);
      assert forall x :: x in pool <==> x == pool[0] || x in pool[1..];
      if pool[0].priority == Low then [pool[0].template] + rest else rest
  }

  /**
   * The candidates of a joined pool are those of the first part followed by
   * those of the second: with the single-entry case above, the candidates
   * keep the pool's order and repeats, which the indexed pick relies on.
   */
  lemma {:induction false} HiddenCandidatesConcat(a: seq<PotentialAbility>, b: seq<PotentialAbility>)
    ensures HiddenCandidates(a + b) == HiddenCandidates(a) + HiddenCandidates(b)
  {
    if |a| == 0 {
      assert a + b == b;
    } else {
      assert (a + b)[0] == a[0];
      assert (a + b)[1..] == a[1..] + b;
      HiddenCandidatesConcat(a[1..], b);
    }
  }

  /**
   * Passing hidden abilities down is on, and the list of the form's hidden
   * abilities contains the parent's current one.
   */
  function HasHiddenAbility(enabled: bool, current: AbilityId, pool: seq<PotentialAbility>): (b: bool)
    ensures !enabled ==> !b
    ensures b <==> enabled && PotentialAbility(current, Low) in pool
  {
    enabled && current in HiddenCandidates(pool)
  }

  /** The hidden re-roll: 60 of 100 draws pick a hidden candidate if the form has one. */
  const HiddenChance := 60

  function RollHiddenAbility(common: AbilityId, pool: seq<PotentialAbility>, roll: int, pick: int)
    : (a: AbilityId)
    requires 0 <= roll < 100
    requires roll < HiddenChance && |HiddenCandidates(pool)| > 0 ==> 0 <= pick < |HiddenCandidates(pool)|
    ensures roll >= HiddenChance ==> a == common
    ensures HiddenCandidates(pool) == [] ==> a == common
    ensures roll < HiddenChance && HiddenCandidates(pool) != [] ==>
              PotentialAbility(a, Low) in pool && a == HiddenCandidates(pool)[pick]
  {
    var hidden := HiddenCandidates(pool);
    if roll >= HiddenChance then common
    else if |hidden| > 0 then hidden[pick]
    else common
  }

  /**
   * The offspring's ability: the library's common roll, replaced by a
   * hidden re-roll only when the base parent held a hidden ability.
   */
  function OffspringAbility(enabled: bool, parentAbility: AbilityId, common: AbilityId,
                            pool: seq<PotentialAbility>, roll: int, pick: int): (a: AbilityId)
    requires HasHiddenAbility(enabled, parentAbility, pool) ==> 0 <= roll < 100
    requires (HasHiddenAbility(enabled, parentAbility, pool) && roll < HiddenChance
              && |HiddenCandidates(pool)| > 0) ==> 0 <= pick < |HiddenCandidates(pool)|
    ensures a == common || PotentialAbility(a, Low) in pool
    ensures !HasHiddenAbility(enabled, parentAbility, pool) ==> a == common
    ensures HasHiddenAbility(enabled, parentAbility, pool) ==> a == RollHiddenAbility(common, pool, roll, pick)
    ensures HasHiddenAbility(enabled, parentAbility, pool) && roll < HiddenChance && HiddenCandidates(pool) != [] ==>
              a == HiddenCandidates(pool)[pick]
    ensures !enabled ==> a == common
  {
    if HasHiddenAbility(enabled, parentAbility, pool) then RollHiddenAbility(common, pool, roll, pick)
    else common
  }

  // ----- Gender -----

  /**
   * Gender as the breeding command computes it: a draw in [0,100] and
   * male when the draw is at most the male percentage.
   */
  function RandomGender(maleRatio: int, draw: int): (g: Gender)
    requires 0 <= draw <= 100
    ensures maleRatio < 0 <==> g == Genderless
    ensures maleRatio >= 0 ==> (g == Male <==> draw <= maleRatio)
  {
    if maleRatio < 0 then Genderless
    else if draw <= maleRatio then Male
    else Female
  }

  /** A female-only species (male percentage 0) can come out male: the draw 0 passes `0 <= 0`. */
  lemma FemaleOnlySpeciesCanYieldMale()
    ensures RandomGender(0, 0) == Male
  {
  }

  /** Gender with the draw in [0,100) and male when the draw is below the male percentage. */
  function IntendedGender(maleRatio: int, draw: int): (g: Gender)
    requires 0 <= draw < 100
    ensures maleRatio < 0 <==> g == Genderless
    ensures maleRatio >= 0 ==> (g == Male <==> draw < maleRatio)
    ensures maleRatio == 0 ==> g == Female
    ensures maleRatio >= 100 ==> g == Male
  {
    if maleRatio < 0 then Genderless
    else if draw < maleRatio then Male
    else Female
  }

  /** How many of the draws 0..n-1 give a male under `gender`. */
  function MaleDraws(gender: (int, int) -> Gender, maleRatio: int, n: nat): nat
    decreases n
  {
    if n == 0 then 0
    else MaleDraws(gender, maleRatio, n - 1) + (if gender(maleRatio, n - 1) == Male then 1 else 0)
  }

  function AsWritten(maleRatio: int, draw: int): Gender {
    if 0 <= draw <= 100 then RandomGender(maleRatio, draw) else Female
  }

  function Intended(maleRatio: int, draw: int): Gender {
    if 0 <= draw < 100 then IntendedGender(maleRatio, draw) else Female
  }

  /** As written, a male percentage of r in [0,100] gives r + 1 male draws out of 101. */
  lemma {:induction false} AsWrittenMaleCount(maleRatio: int, n: nat)
    requires 0 <= maleRatio <= 100 && n <= 101
    ensures MaleDraws(AsWritten, maleRatio, n) == if n <= maleRatio then n else maleRatio + 1
  {
    if n > 0 {
      AsWrittenMaleCount(maleRatio, n - 1);
    }
  }

  /** Corrected, a male percentage of r in [0,100] gives exactly r male draws out of 100. */
  lemma {:induction false} IntendedMaleCount(maleRatio: int, n: nat)
    requires 0 <= maleRatio <= 100 && n <= 100
    ensures MaleDraws(Intended, maleRatio, n) == if n <= maleRatio then n else maleRatio
  {
    if n > 0 {
      IntendedMaleCount(maleRatio, n - 1);
    }
  }

  // ----- Nature -----

  /**
   * The offspring's nature: a coin between two everstone holders, the
   * holder's nature when only one holds it, the library's random nature otherwise.
   */
  function InheritNature(item1: HeldItem, item2: HeldItem, n1: Nature, n2: Nature,
                         coin: int, random: Nature): (n: Nature)
    requires HoldsEverstone(item1) && HoldsEverstone(item2) ==> 0 <= coin < 2
    ensures HoldsEverstone(item1) || HoldsEverstone(item2) ==> n == n1 || n == n2
    ensures HoldsEverstone(item1) && !HoldsEverstone(item2) ==> n == n1
    ensures !HoldsEverstone(item1) && HoldsEverstone(item2) ==> n == n2
    ensures HoldsEverstone(item1) && HoldsEverstone(item2) ==> (n == n1 || coin == 1) && (n == n2 || coin == 0)
    ensures !HoldsEverstone(item1) && !HoldsEverstone(item2) ==> n == random
  {
    if HoldsEverstone(item1) && HoldsEverstone(item2) then (if coin == 0 then n1 else n2)
    else if HoldsEverstone(item1) then n1
    else if HoldsEverstone(item2) then n2
    else random
  }

  /** Swapping the parents and flipping the coin gives the same nature. */
  lemma InheritNatureSymmetric(item1: HeldItem, item2: HeldItem, n1: Nature, n2: Nature,
                               coin: int, random: Nature)
    requires 0 <= coin < 2
    ensures InheritNature(item1, item2, n1, n2, coin, random)
         == InheritNature(item2, item1, n2, n1, 1 - coin, random)
  {
  }

  // ----- The whole synthesis -----

  /**
   * The random values one synthesis consumes: the signed friendship draw,
   * the shiny draw, the library's common-ability roll, the hidden re-roll
   * and pick, the gender draw, the IV draws and the nature coin together
   * with the library's random nature.
   */
  datatype Draws = Draws(
    friendship: int32,
    shiny: int,
    commonAbility: AbilityId,
    hiddenRoll: int,
    hiddenPick: int,
    gender: int,
    powerCoin: int,
    picks: seq<Pick>,
    fill: seq<int>,
    natureCoin: int,
    randomNature: Nature)

  /** The offspring as handed to the party store. */
  datatype Baby = Baby(
    species: SpeciesId,
    friendship: int,
    shiny: bool,
    ability: AbilityId,
    gender: Gender,
    ivs: StatValues,
    evs: StatValues,
    nature: Nature,
    originalTrainer: Player)

  /** Each draw lies in the range of the `nextInt` call that produces it, for the calls that happen. */
  predicate DrawsFit(dex: Dex, p1: Creature, p2: Creature, dittoOrSelf: bool, breeder: Player,
                     hiddenEnabled: bool, shinyRate: int, d: Draws)
    requires WellFormedDex(dex) && p1.species in dex && p2.species in dex
  {
    var base := BaseParent(p1, p2, dittoOrSelf);
    var pool := dex[OffspringSpecies(dex, base)].abilities;
    && (shinyRate > 0 ==> 0 <= d.shiny < EffectiveShinyRate(shinyRate, Masuda(p1, p2, breeder)))
    && (HasHiddenAbility(hiddenEnabled, base.ability, pool) ==> 0 <= d.hiddenRoll < 100)
    && ((HasHiddenAbility(hiddenEnabled, base.ability, pool) && d.hiddenRoll < HiddenChance
         && |HiddenCandidates(pool)| > 0) ==> 0 <= d.hiddenPick < |HiddenCandidates(pool)|)
    && 0 <= d.gender < 100
    && (HoldsPowerItem(p1.heldItem) && HoldsPowerItem(p2.heldItem) ==> 0 <= d.powerCoin < 2)
    && PicksFit(p1.heldItem, p2.heldItem, d.picks)
    && FillFits(p1.heldItem, p2.heldItem, d.fill)
    && (HoldsEverstone(p1.heldItem) && HoldsEverstone(p2.heldItem) ==> 0 <= d.natureCoin < 2)
  }

  /** Every trait of `baby` but its IVs is the one the draws give this pair and breeder. */
  predicate BredAsDrawn(dex: Dex, p1: Creature, p2: Creature, dittoOrSelf: bool, breeder: Player,
                        hiddenEnabled: bool, shinyRate: int, d: Draws, baby: Baby)
    requires WellFormedDex(dex) && p1.species in dex && p2.species in dex
    requires DrawsFit(dex, p1, p2, dittoOrSelf, breeder, hiddenEnabled, shinyRate, d)
  {
    var base := BaseParent(p1, p2, dittoOrSelf);
    var form := dex[OffspringSpecies(dex, base)];
    && baby.species == OffspringSpecies(dex, base)
    && baby.friendship == Friendship(d.friendship, form.baseFriendship)
    && baby.shiny == RollShiny(shinyRate, Masuda(p1, p2, breeder), d.shiny)
    && baby.ability == OffspringAbility(hiddenEnabled, base.ability, d.commonAbility, form.abilities,
                                        d.hiddenRoll, d.hiddenPick)
    && baby.gender == IntendedGender(form.maleRatio, d.gender)
    && baby.evs == ZeroStats
    && baby.nature == InheritNature(p1.heldItem, p2.heldItem, p1.nature, p2.nature, d.natureCoin, d.randomNature)
    && baby.originalTrainer == breeder
  }

  /** Everything of the offspring but its IVs, which are still the base parent's. */
  method Traits(dex: Dex, p1: Creature, p2: Creature, dittoOrSelf: bool, breeder: Player,
               hiddenEnabled: bool, shinyRate: int, d: Draws)
    returns (baby: Baby)
    requires WellFormedDex(dex) && p1.species in dex && p2.species in dex
    requires Consistent(p1.heldItem) && Consistent(p2.heldItem)
    requires DrawsFit(dex, p1, p2, dittoOrSelf, breeder, hiddenEnabled, shinyRate, d)
    ensures baby.species in dex && baby.species != Manaphy
    ensures baby.species == Remap(BaseForm(dex, BaseParent(p1, p2, dittoOrSelf).species))
    ensures var base := dex[baby.species].baseFriendship;
            base - 76 <= baby.friendship <= base + 76
    ensures baby.friendship == Friendship(d.friendship, dex[baby.species].baseFriendship)
    ensures baby.shiny <==> shinyRate > 0 && d.shiny == 0
    ensures baby.ability == d.commonAbility || PotentialAbility(baby.ability, Low) in dex[baby.species].abilities
    ensures baby.ability == OffspringAbility(hiddenEnabled, BaseParent(p1, p2, dittoOrSelf).ability, d.commonAbility,
                                             dex[baby.species].abilities, d.hiddenRoll, d.hiddenPick)
    ensures baby.gender == Genderless <==> dex[baby.species].maleRatio < 0
    ensures dex[baby.species].maleRatio >= 0 ==> (baby.gender == Male <==> d.gender < dex[baby.species].maleRatio)
    ensures baby.evs == ZeroStats
    ensures baby.originalTrainer == breeder
    ensures HoldsEverstone(p1.heldItem) || HoldsEverstone(p2.heldItem) ==>
              baby.nature == p1.nature || baby.nature == p2.nature
    ensures !HoldsEverstone(p1.heldItem) && !HoldsEverstone(p2.heldItem) ==> baby.nature == d.randomNature
    ensures baby.nature == InheritNature(p1.heldItem, p2.heldItem, p1.nature, p2.nature, d.natureCoin, d.randomNature)
    ensures baby.ivs == BaseParent(p1, p2, dittoOrSelf).ivs
    ensures BredAsDrawn(dex, p1, p2, dittoOrSelf, breeder, hiddenEnabled, shinyRate, d, baby)
  {
    var base := BaseParent(p1, p2, dittoOrSelf);
    var root := WalkToBase(dex, base.species);
    var species := Remap(root);
    var form := dex[species];
    var friendship := Friendship(d.friendship, form.baseFriendship);
    var shiny := RollShiny(shinyRate, Masuda(p1, p2, breeder), d.shiny);
    var ability := OffspringAbility(hiddenEnabled, base.ability, d.commonAbility, form.abilities,
                                    d.hiddenRoll, d.hiddenPick);
    var gender := IntendedGender(form.maleRatio, d.gender);
    var nature := InheritNature(p1.heldItem, p2.heldItem, p1.nature, p2.nature,
                                d.natureCoin, d.randomNature);
    baby := Baby(species, friendship, shiny, ability, gender, base.ivs, ZeroStats, nature, breeder);
  }

  /** The offspring of two parents bred by `breeder`, with the IV writes that built its IVs. */
  method Breed(dex: Dex, p1: Creature, p2: Creature, dittoOrSelf: bool, breeder: Player,
               hiddenEnabled: bool, shinyRate: int, d: Draws)
    returns (baby: Baby, ivWrites: seq<IvWrite>)
    requires WellFormedDex(dex) && p1.species in dex && p2.species in dex
    requires Consistent(p1.heldItem) && Consistent(p2.heldItem)
    requires DrawsFit(dex, p1, p2, dittoOrSelf, breeder, hiddenEnabled, shinyRate, d)
    ensures baby.species in dex && baby.species != Manaphy
    ensures baby.species == Remap(BaseForm(dex, BaseParent(p1, p2, dittoOrSelf).species))
    ensures var base := dex[baby.species].baseFriendship;
            base - 76 <= baby.friendship <= base + 76
    ensures baby.friendship == Friendship(d.friendship, dex[baby.species].baseFriendship)
    ensures baby.shiny <==> shinyRate > 0 && d.shiny == 0
    ensures baby.ability == d.commonAbility || PotentialAbility(baby.ability, Low) in dex[baby.species].abilities
    ensures baby.ability == OffspringAbility(hiddenEnabled, BaseParent(p1, p2, dittoOrSelf).ability, d.commonAbility,
                                             dex[baby.species].abilities, d.hiddenRoll, d.hiddenPick)
    ensures baby.gender == Genderless <==> dex[baby.species].maleRatio < 0
    ensures dex[baby.species].maleRatio >= 0 ==> (baby.gender == Male <==> d.gender < dex[baby.species].maleRatio)
    ensures baby.evs == ZeroStats
    ensures baby.originalTrainer == breeder
    ensures HoldsEverstone(p1.heldItem) || HoldsEverstone(p2.heldItem) ==>
              baby.nature == p1.nature || baby.nature == p2.nature
    ensures !HoldsEverstone(p1.heldItem) && !HoldsEverstone(p2.heldItem) ==> baby.nature == d.randomNature
    ensures baby.nature == InheritNature(p1.heldItem, p2.heldItem, p1.nature, p2.nature, d.natureCoin, d.randomNature)
    // IVs: every channel written once, `quota` of them copied from a parent.
    ensures |ivWrites| == 6 && Distinct(Written(ivWrites))
    ensures forall i | 0 <= i < 6 :: baby.ivs.Get(ivWrites[i].stat) == ivWrites[i].value
    ensures forall i | 0 <= i < 6 :: ivWrites[i].source.Rolled? <==> i >= Quota(p1.heldItem, p2.heldItem)
    ensures Faithful(ivWrites, p1.ivs, p2.ivs)
    // A power item's channel is written first, copied from its holder.
    ensures PowerHolder(p1.heldItem, p2.heldItem, d.powerCoin).Some? ==>
              var h := PowerHolder(p1.heldItem, p2.heldItem, d.powerCoin).value;
              && ivWrites[0].stat == PowerStat(ParentItem(h, p1.heldItem, p2.heldItem))
              && ivWrites[0].source == Inherited(h)
              && baby.ivs.Get(ivWrites[0].stat) == ParentIvs(h, p1.ivs, p2.ivs).Get(ivWrites[0].stat)
    // Then one channel per pick, from the pick's parent, then the leftovers with the fresh values.
    ensures InheritedAsDrawn(ivWrites, p1.heldItem, p2.heldItem, d.powerCoin, d.picks, d.fill)
    ensures BredAsDrawn(dex, p1, p2, dittoOrSelf, breeder, hiddenEnabled, shinyRate, d, baby)
  {
    baby := Traits(dex, p1, p2, dittoOrSelf, breeder, hiddenEnabled, shinyRate, d);
    var ivs;
    ivs, ivWrites := OffspringIvs(baby.ivs, p1.ivs, p2.ivs, p1.heldItem, p2.heldItem, d.powerCoin, d.picks, d.fill);
    baby := baby.(ivs := ivs);
  }

}

=== FILE: pedigree.dfy ===
/**
 * Resolution of an offspring's species to the base of its evolution line:
 * the pre-evolution links are followed until a species without one is reached.
 */
module Pedigree {
  import opened Wrappers
  import opened Creatures

  /**
   * The number of pre-evolution links from `s` to a species without one,
   * provided the chain ends within `fuel` links.
   */
  function StepsToBase(dex: Dex, s: SpeciesId, fuel: nat): Option<nat>
    requires Closed(dex) && s in dex
    decreases fuel
  {
    match dex[s].preEvolution
    case None => Some(0)
    case Some(p) =>
      if fuel == 0 then None
      else
        match StepsToBase(dex, p, fuel - 1)
        case None => None
        case Some(k) => Some(k + 1)
  }

  /**
   * No chain of pre-evolution links loops: from every registered species a
   * base form is reached within as many links as there are species.
   */
  predicate Acyclic(dex: Dex)
    requires Closed(dex)
  {
    forall s | s in dex :: StepsToBase(dex, s, |dex|).Some?
  }

  /** The species reached from `s` by following at most `fuel` pre-evolution links. */
  function Follow(dex: Dex, s: SpeciesId, fuel: nat): (r: SpeciesId)
    requires Closed(dex) && s in dex
    ensures r in dex
    decreases fuel
  {
    match dex[s].preEvolution
    case None => s
    case Some(p) => if fuel == 0 then s else Follow(dex, p, fuel - 1)
  }

  /** More fuel changes nothing once the chain has ended. */
  lemma {:induction false} MoreFuel(dex: Dex, s: SpeciesId, fuel: nat, more: nat)
    requires Closed(dex) && s in dex
    requires StepsToBase(dex, s, fuel).Some? && fuel <= more
    ensures StepsToBase(dex, s, more) == StepsToBase(dex, s, fuel)
    ensures Follow(dex, s, more) == Follow(dex, s, fuel)
    decreases fuel
  {
    match dex[s].preEvolution
    case None =>
    case Some(p) =>
      MoreFuel(dex, p, fuel - 1, more - 1);
  }

  /** With enough fuel, following the links ends at a species without a pre-evolution. */
  lemma {:induction false} FollowEndsAtBase(dex: Dex, s: SpeciesId, fuel: nat)
    requires Closed(dex) && s in dex
    requires StepsToBase(dex, s, fuel).Some?
    ensures dex[Follow(dex, s, fuel)].preEvolution.None?
    decreases fuel
  {
    match dex[s].preEvolution
    case None =>
    case Some(p) =>
      FollowEndsAtBase(dex, p, fuel - 1);
  }

  /** One link up the chain is one step closer to the base, and leads to the same base. */
  lemma StepUp(dex: Dex, s: SpeciesId)
    requires Closed(dex) && Acyclic(dex) && s in dex && dex[s].preEvolution.Some?
    ensures dex[s].preEvolution.value in dex
    ensures StepsToBase(dex, dex[s].preEvolution.value, |dex|).Some?
    ensures StepsToBase(dex, dex[s].preEvolution.value, |dex|).value
            < StepsToBase(dex, s, |dex|).value
    ensures Follow(dex, dex[s].preEvolution.value, |dex|) == Follow(dex, s, |dex|)
  {
    var p := dex[s].preEvolution.value;
    assert |dex| > 0 by { assert s in dex; }
    assert StepsToBase(dex, p, |dex| - 1).Some?;
    MoreFuel(dex, p, |dex| - 1, |dex|);
  }

  /** The base form of `s`: the end of its pre-evolution chain. */
  function BaseForm(dex: Dex, s: SpeciesId): (r: SpeciesId)
    requires Closed(dex) && Acyclic(dex) && s in dex
    ensures r in dex
    ensures dex[r].preEvolution.None?
    ensures dex[s].preEvolution.None? ==> r == s
  {
    FollowEndsAtBase(dex, s, |dex|);
    Follow(dex, s, |dex|)
  }

  /** Resolving a base form again changes nothing. */
  lemma BaseFormIdempotent(dex: Dex, s: SpeciesId)
    requires Closed(dex) && Acyclic(dex) && s in dex
    ensures BaseForm(dex, BaseForm(dex, s)) == BaseForm(dex, s)
  {
  }

  /** A species and its pre-evolution share one base form. */
  lemma BaseFormOfPreEvolution(dex: Dex, s: SpeciesId)
    requires Closed(dex) && Acyclic(dex) && s in dex && dex[s].preEvolution.Some?
    ensures dex[s].preEvolution.value in dex
    ensures BaseForm(dex, dex[s].preEvolution.value) == BaseForm(dex, s)
  {
    StepUp(dex, s);
  }

  /**
   * The walk of the breeding code: while the current species has a
   * pre-evolution, move to it. Terminates because every step brings the
   * species one link closer to its base form.
   */
  method WalkToBase(dex: Dex, s: SpeciesId) returns (r: SpeciesId)
    requires Closed(dex) && Acyclic(dex) && s in dex
    ensures r in dex && dex[r].preEvolution.None?
    ensures r == BaseForm(dex, s)
  {
    r := s;
    while dex[r].preEvolution.Some?
      invariant r in dex
      invariant BaseForm(dex, r) == BaseForm(dex, s)
      decreases StepsToBase(dex, r, |dex|).value
    {
      StepUp(dex, r);
      r := dex[r].preEvolution.value;
    }
  }
}

=== FILE: sessions.dfy ===
/**
 * Breeding sessions, one per player, and the cooldown that follows a
 * successful breed. The delayed release is the explicit `Release` transition;
 * the current time is a parameter, in milliseconds.
 */
module Sessions {
  import opened Wrappers
  import opened JavaArith
  import opened Creatures
  import opened HeldItems
  import opened Eligibility
  import opened Offspring
  import BreedingConfig

  /**
   * One breeding session. `id` stands for the object's identity: the
   * selection screen keeps the session object it was opened with, which may
   * since have been removed from the map. `timeBred` is 0 until a breed succeeds.
   */
  datatype Session = Session(
    id: nat,
    player: Player,
    isVip: bool,
    first: Option<Creature>,
    second: Option<Creature>,
    timeBred: int,
    cancelled: bool)

  type Sessions = map<Player, Session>

  /** Every session is filed under its own player. */
  predicate KeyedByOwner(m: Sessions) {
    forall p | p in m :: m[p].player == p
  }

  /** The cooldown of the requester's tier, in minutes. */
  function CooldownMinutes(cfg: BreedingConfig.Config, isVip: bool): int {
    if isVip then cfg.vipCooldownMinutes else cfg.cooldownMinutes
  }

  /** The cooldown window in milliseconds. */
  function WindowMillis(cfg: BreedingConfig.Config, isVip: bool): int {
    1000 * 60 * CooldownMinutes(cfg, isVip)
  }

  /** A freshly opened session: nothing selected, never bred. */
  function NewSession(id: nat, player: Player, isVip: bool): (s: Session)
    ensures s.player == player && s.timeBred == 0 && !s.cancelled
    ensures s.first.None? && s.second.None?
    ensures s.id == id && s.isVip == isVip
  {
    Session(id, player, isVip, None, None, 0, false)
  }

  /**
   * The command's reply. When a never-bred session is purged, `purged` is that
   * session object after `cancel()` set its flag: the selection screen opened
   * with it still holds it and will see the flag.
   */
  datatype Reply =
    | Rejected(secondsLeft: int)          // still cooling down; nothing changes
    | Opened(purged: Option<Session>)     // a new session was opened

  datatype Step = Step(sessions: Sessions, reply: Reply)

  /** Seconds left of the cooldown, as the rejection message reports them. */
  function SecondsLeft(cfg: BreedingConfig.Config, isVip: bool, elapsedMillis: int): (r: int)
    ensures 0 <= elapsedMillis <= WindowMillis(cfg, isVip) ==> 0 <= r <= 60 * CooldownMinutes(cfg, isVip)
    ensures elapsedMillis == WindowMillis(cfg, isVip) ==> r == 0
    ensures elapsedMillis >= 0 ==>
              r * 1000 <= WindowMillis(cfg, isVip) - elapsedMillis + 999
              && WindowMillis(cfg, isVip) - elapsedMillis <= r * 1000
  {
    60 * CooldownMinutes(cfg, isVip) - Quot(elapsedMillis, 1000)
  }

  /** No session in the map has object identity `id`: a newly allocated session. */
  predicate FreshId(m: Sessions, id: nat) {
    forall p | p in m :: m[p].id != id
  }

  /**
   * The breeding command. A never-bred session is cancelled (its flag set)
   * and dropped, an expired one (strictly past the window) is dropped; a
   * remaining one rejects the call. Otherwise a new session is filed for
   * the player.
   */
  function Execute(m: Sessions, player: Player, isVip: bool, now: int,
                   cfg: BreedingConfig.Config, freshId: nat): (r: Step)
    requires FreshId(m, freshId)
    ensures player !in m ==> r == Step(m[player := NewSession(freshId, player, isVip)], Opened(None))
    ensures player in m && m[player].timeBred == 0 ==>
              r == Step(m[player := NewSession(freshId, player, isVip)],
                        Opened(Some(m[player].(cancelled := true))))
    ensures player in m && m[player].timeBred != 0 ==>
              var elapsed := now - m[player].timeBred;
              && (r.reply.Rejected? <==> elapsed <= WindowMillis(cfg, isVip))
              && (r.reply.Rejected? ==> r.sessions == m
                                        && r.reply.secondsLeft == SecondsLeft(cfg, isVip, elapsed))
              && (r.reply.Opened? ==> r == Step(m[player := NewSession(freshId, player, isVip)], Opened(None)))
    ensures r.reply.Opened? ==> r.sessions[player].id == freshId && !r.sessions[player].cancelled
    ensures r.reply.Opened? && r.reply.purged.Some? ==> r.reply.purged.value.id != freshId
    ensures KeyedByOwner(m) ==> KeyedByOwner(r.sessions)
  {
    var created := NewSession(freshId, player, isVip);
    if player !in m then Step(m[player := created], Opened(None))
    else if m[player].timeBred == 0 then
      // cancel() sets the object's flag and removes the entry, then a new session is filed.
      var stale := m[player].(cancelled := true);
      Step((m - {player})[player := created], Opened(Some(stale)))
    else
      var elapsed := now - m[player].timeBred;
      if elapsed > WindowMillis(cfg, isVip) then Step((m - {player})[player := created], Opened(None))
      else Step(m, Rejected(SecondsLeft(cfg, isVip, elapsed)))
  }

  /** The delayed release after a cooldown: the player's entry is removed. */
  function Release(m: Sessions, player: Player): (m': Sessions)
    ensures player !in m'
    ensures forall p | p in m && p != player :: p in m' && m'[p] == m[p]
    ensures m'.Keys <= m.Keys
  {
    m - {player}
  }

  /** Why a breed was cancelled. */
  datatype CancelReason = AlreadyCancelled | NotEnoughCreatures | RuleFailed(reason: Reason)

  datatype Outcome =
    | Bred(baby: Baby, releaseAfterMinutes: int)
    | Cancelled(why: CancelReason)

  /**
   * Writes a session object's new state back: the map sees it only while
   * this very object is still the one filed for its player.
   */
  function Store(m: Sessions, s: Session): (m': Sessions)
    ensures s.player in m && m[s.player].id == s.id ==> m' == m[s.player := s]
    ensures !(s.player in m && m[s.player].id == s.id) ==> m' == m
    ensures m'.Keys == m.Keys
    ensures forall p | p in m && p != s.player :: m'[p] == m[p]
  {
    if s.player in m && m[s.player].id == s.id then m[s.player := s] else m
  }

  /** The session's creatures are registered and their items are readable. */
  predicate Selectable(dex: Dex, s: Session) {
    && (s.first.Some? ==> s.first.value.species in dex && Consistent(s.first.value.heldItem))
    && (s.second.Some? ==> s.second.value.species in dex && Consistent(s.second.value.heldItem))
  }

  /** The session will reach the synthesis: not cancelled, both creatures present, the pair passes. */
  predicate ReadyToBreed(dex: Dex, s: Session, cfg: BreedingConfig.Config)
    requires Selectable(dex, s)
  {
    && !s.cancelled && s.first.Some? && s.second.Some?
    && Validate(dex, s.first.value, s.second.value, cfg.dittoBreeding).Pass?
  }

  /**
   * The guarded breed of one session object. A cancelled session, a missing
   * creature or a failing rule cancels it, which removes the player's entry;
   * otherwise the offspring is produced, the session marked done with
   * `timeBred = now`, and the release armed with the tier's cooldown.
   */
  method DoBreed(m: Sessions, s: Session, now: int, cfg: BreedingConfig.Config, dex: Dex,
                 shinyRate: int, d: Draws)
    returns (m': Sessions, s': Session, outcome: Outcome)
    requires WellFormedDex(dex) && Selectable(dex, s)
    requires ReadyToBreed(dex, s, cfg) ==>
               var v := Validate(dex, s.first.value, s.second.value, cfg.dittoBreeding);
               DrawsFit(dex, s.first.value, s.second.value, v.dittoOrSelf, s.player,
                        cfg.hiddenAbility, shinyRate, d)
    ensures s'.cancelled
    ensures s' == s.(cancelled := true, timeBred := s'.timeBred)
    ensures s.cancelled ==> outcome == Cancelled(AlreadyCancelled) && m' == m - {s.player}
    ensures !s.cancelled && (s.first.None? || s.second.None?) ==>
              outcome == Cancelled(NotEnoughCreatures) && m' == m - {s.player}
    ensures !s.cancelled && s.first.Some? && s.second.Some?
            && Validate(dex, s.first.value, s.second.value, cfg.dittoBreeding).Fail? ==>
              outcome == Cancelled(RuleFailed(Validate(dex, s.first.value, s.second.value, cfg.dittoBreeding).reason))
              && m' == m - {s.player}
    ensures outcome.Cancelled? ==> s'.timeBred == s.timeBred && s.player !in m'
    ensures outcome.Bred? <==> ReadyToBreed(dex, s, cfg)
    ensures outcome.Bred? ==>
              && s'.timeBred == now
              && m' == Store(m, s')
              && outcome.releaseAfterMinutes == CooldownMinutes(cfg, s.isVip)
              && outcome.baby.originalTrainer == s.player
    // The baby is the one the validated pair and its ditto-or-self verdict give under the draws.
    ensures outcome.Bred? ==>
              BredAsDrawn(dex, s.first.value, s.second.value,
                          Validate(dex, s.first.value, s.second.value, cfg.dittoBreeding).dittoOrSelf,
                          s.player, cfg.hiddenAbility, shinyRate, d, outcome.baby)
    ensures KeyedByOwner(m) ==> KeyedByOwner(m')
  {
    if s.cancelled {
      s' := s;
      m' := m - {s.player};
      outcome := Cancelled(AlreadyCancelled);
      return;
    }
    if s.first.None? || s.second.None? {
      s' := s.(cancelled := true);
      m' := m - {s.player};
      outcome := Cancelled(NotEnoughCreatures);
      return;
    }
    var p1, p2 := s.first.value, s.second.value;
    var verdict := Validate(dex, p1, p2, cfg.dittoBreeding);
    if verdict.Fail? {
      s' := s.(cancelled := true);
      m' := m - {s.player};
      outcome := Cancelled(RuleFailed(verdict.reason));
      return;
    }
    var baby, _ := Breed(dex, p1, p2, verdict.dittoOrSelf, s.player, cfg.hiddenAbility, shinyRate, d);
    s' := s.(cancelled := true, timeBred := now);
    m' := Store(m, s');
    outcome := Bred(baby, CooldownMinutes(cfg, s.isVip));
  }

  /** A session runs the breed at most once: a second attempt is always cancelled. */
  lemma BreedAtMostOnce(dex: Dex, s: Session, cfg: BreedingConfig.Config)
    requires Selectable(dex, s) && s.cancelled
    ensures !ReadyToBreed(dex, s, cfg)
  {
  }

  /**
   * After a successful breed at a nonzero time `bredAt`, the player's next
   * command is rejected exactly while no more than the window has elapsed,
   * with the seconds left; afterwards a new session is opened.
   */
  lemma CooldownFollowsBreed(m: Sessions, s: Session, bredAt: int, later: int,
                             cfg: BreedingConfig.Config, freshId: nat)
    requires s.player in m && m[s.player].id == s.id && bredAt != 0 && FreshId(m, freshId)
    ensures var m2 := Store(m, s.(cancelled := true, timeBred := bredAt));
            var r := Execute(m2, s.player, s.isVip, later, cfg, freshId);
            && (r.reply.Rejected? <==> later - bredAt <= WindowMillis(cfg, s.isVip))
            && (r.reply.Rejected? ==> r.reply.secondsLeft == SecondsLeft(cfg, s.isVip, later - bredAt))
            && (r.reply.Opened? ==> r.sessions[s.player].timeBred == 0 && r.reply.purged.None?)
  {
  }

  /** A non-VIP player with a five-minute cooldown: two minutes later 180 seconds remain, six minutes later breeding reopens. */
  lemma FiveMinuteScenario(m: Sessions, s: Session, bredAt: int, freshId: nat)
    requires s.player in m && m[s.player].id == s.id && bredAt > 0 && !s.isVip && FreshId(m, freshId)
    ensures var cfg := BreedingConfig.Defaults;
            var m2 := Store(m, s.(cancelled := true, timeBred := bredAt));
            && Execute(m2, s.player, false, bredAt + 2 * 60000, cfg, freshId).reply == Rejected(180)
            && Execute(m2, s.player, false, bredAt + 6 * 60000, cfg, freshId).reply == Opened(None)
  {
  }

  /**
   * A session purged by the command before it bred can never breed: its
   * flag is set, and as it is no longer the filed object, writing it back
   * leaves the player's new session alone.
   */
  lemma PurgedSessionNeverBreeds(dex: Dex, m: Sessions, player: Player, isVip: bool, now: int,
                                 cfg: BreedingConfig.Config, freshId: nat)
    requires KeyedByOwner(m) && player in m && Selectable(dex, m[player]) && FreshId(m, freshId)
    ensures var r := Execute(m, player, isVip, now, cfg, freshId);
            r.reply.Opened? && r.reply.purged.Some? ==>
              var stale := r.reply.purged.value;
              && stale.id == m[player].id && Selectable(dex, stale)
              && !ReadyToBreed(dex, stale, cfg)
              && Store(r.sessions, stale.(timeBred := now)) == r.sessions
  {
  }

  /**
   * The selection screen of a purged session is confirmed after the player
   * reopened breeding: nothing is bred, and the cancellation removes the
   * player's entry, the new session with it.
   */
  method StaleConfirmation(dex: Dex, m: Sessions, player: Player, isVip: bool, now: int,
                           cfg: BreedingConfig.Config, freshId: nat, shinyRate: int, d: Draws)
    returns (m': Sessions, outcome: Outcome)
    requires WellFormedDex(dex) && KeyedByOwner(m) && player in m && Selectable(dex, m[player])
    requires FreshId(m, freshId)
    requires m[player].timeBred == 0
    ensures outcome == Cancelled(AlreadyCancelled)
    ensures player !in m'
    ensures forall p | p in m && p != player :: p in m' && m'[p] == m[p]
  {
    var step := Execute(m, player, isVip, now, cfg, freshId);
    var stale := step.reply.purged.value;
    var closed;
    m', closed, outcome := DoBreed(step.sessions, stale, now, cfg, dex, shinyRate, d);
  }
}

=== FILE: wrappers.dfy ===
/** Optional values and success-or-error results used across the model. */
module Wrappers {

  /** A value that may be absent (a Java reference that may be null). */
  datatype Option<+T> = None | Some(value: T)

  /** The outcome of an operation that either produces a value or raises an error. */
  datatype Result<+R, +E> = Success(value: R) | Failure(error: E)
}
